=== FILE: README.md ===
# Audio-reactive LED driver and weather screens — a Dafny model

This project models the pure logic of three CircuitPython scripts and proves
properties about it.

- **The LED driver (`Final.py`).** A microphone drives two 5-pixel NeoPixel strips.
  - The strips are addressed as one upside-down "U" of ten logical pixels.
  - A button cycles through eight visual modes.
  - Every frame runs the same chain: an attack/release envelope follower, an adaptive auto-gain, a slow baseline follower and a transient "punch" signal.
  - The active mode's renderer then paints the strips from those signals.
- **The icon weather screen (`Testing/IconWeather/code.py`).** It turns an OpenWeatherMap reply into:
  - an icon file name (`icon_for`);
  - normalised text (`nice_case`, `t_ascii`);
  - an autosized temperature label (`autosize_temp`);
  - the scale and position of the icon bitmap (`load_scaled_icon`);
  - the screen's texts, with defaults for missing data (`update_ui`).
- **The Chinese weather screen (`ChineseWeather.py`).**
  - It looks city names and condition descriptions up in two tables, falling back to the English text.
  - It formats the temperature with a degree sign.
  - It lays the result out as three lines.

Signal values are Dafny `real`s, an idealisation of the Python floats. Python's
`int()` on a float is truncation toward zero (`Numeric.Trunc`), and `round()`
rounds half to even (`Numeric.RoundHalfEven`). `x % 1.0` is the fractional
part (`Numeric.Frac`). Whitespace is CircuitPython's: `split()` and `strip()`
treat only the space and the ASCII controls tab, line feed, vertical tab, form
feed and carriage return as whitespace (`Strings.IsSpace`), so a no-break space
is part of a word. Case mapping is CircuitPython's as well: `upper()` and
`lower()` change ASCII letters only (`Strings.UpperAscii`, `Strings.LowerAscii`). Pixel buffers are two `seq<Rgb>` values, and `show()` is the
act of handing such a value out. The modules are:

| module | file | models |
|---|---|---|
| `Wrappers` | wrappers.dfy | `Option`, for missing keys and failed loads |
| `Numeric` | numeric.dfy | `clamp`, `clamp01`, `lerp`, Python's `int()`, `round()` and `% 1.0` |
| `Strings` | strings.dfy | the `str` operations the screens use: `isspace`, `lower`/`upper`, `split()`, `" ".join`, `strip()`, `split("\n")`, `endswith`, `str(int)` |
| `Words` | words.dfy | what `split()` means on every input: the words are the non-whitespace characters, laid out between whitespace runs |
| `Topology` | topology.dfy | `set_u_index`, `fill_all`, `clear_u`, `clear_all` |
| `Modes` | modes.dfy | the mode constants and the button transition |
| `Envelope` | envelope.dfy | the per-frame signal update |
| `Render` | render.dfy | the eight renderers |
| `Engine` | engine.dfy | one whole pass of the main loop |
| `IconWeather` | icon_weather.dfy | the icon weather screen's helpers |
| `ChineseWeather` | chinese_weather.dfy | the Chinese screen's tables and formatting |

## Model

| member | source | states |
|---|---|---|
| Numeric.Clamp | Final.py:84-89 | With `lo <= hi` the result lies in `[lo, hi]`. A value already in range is returned unchanged. Below `lo` the result is `lo`, and it is always one of `x`, `lo`, `hi`. |
| Numeric.Clamp01 | Final.py:77-82 | The result lies in `[0, 1]`, an in-range value is unchanged, and it agrees with `clamp(x, 0, 1)`. |
| Numeric.ClampIdempotent | Final.py:84-89 | Clamping twice is clamping once. |
| Numeric.ClampMonotone | Final.py:84-89 | Clamping preserves order. |
| Numeric.Advance | Final.py:198 | `x + gap * rate`, the step shared by `lerp` and the followers: for a rate in `[0, 1]` it lands between `x` and `x + gap`, strictly past `x` for a positive rate and gap. Rates 0 and 1 stop at the two ends, and `gap - gap * rate` of the gap is left. |
| Numeric.Lerp | Final.py:197-198 | For `t` in `[0, 1]` the result lies between `a` and `b`. `t = 0` gives `a` and `t = 1` gives `b`. |
| Numeric.Trunc | Final.py:337 | Python `int()` of a float: the integer toward zero within distance 1 of the input. |
| Numeric.Frac | Final.py:306 | `x % 1.0` lies in `[0, 1)` and differs from `x` by a whole number. It is the identity on `[0, 1)`. |
| Numeric.RoundHalfEven | Testing/IconWeather/code.py:108 | `round(t)` is within 1/2 of `t`, and an exact tie goes to the even neighbour. |
| Strings.Lower | ChineseWeather.py:77 | `desc.lower()` keeps the length and lower-cases each character in place. |
| Strings.LowerAppend | ChineseWeather.py:77 | Lower-casing distributes over concatenation. |
| Strings.Strip | ChineseWeather.py:77 | `strip()` gives a string with no surrounding whitespace, obtained from the input by removing a whitespace prefix and a whitespace suffix. |
| Strings.StripPadded | ChineseWeather.py:77 | Stripping undoes any whitespace padding of an already-trimmed string. |
| Strings.Split | Testing/IconWeather/code.py:113 | `split()` yields non-empty words without whitespace, built from the input's characters. `Words.SplitIff` pins the words down exactly. |
| Strings.SplitJoin | Testing/IconWeather/code.py:113-114 | `split()` of `" ".join(words)` (`Strings.Join`) gives back the words. |
| Words.SplitContents | Testing/IconWeather/code.py:113 | The words of `split()`, written one after another, are exactly the input's non-whitespace characters in order. A whitespace-only input has no words. |
| Words.SplitInterleave | Testing/IconWeather/code.py:113 | Any words laid out with any whitespace runs split back into exactly those words. The runs between words are non-empty, and the runs at the two ends may be empty. |
| Words.SplitLayout | Testing/IconWeather/code.py:113 | Every string is such a layout of its own `split()` words. |
| Words.SplitIff | Testing/IconWeather/code.py:113 | `split(s) == ws` holds exactly when `s` is a layout of the words `ws`. |
| Strings.JoinShape | Testing/IconWeather/code.py:114 | `" ".join(words)` puts a single space between words and none at the ends. It is empty exactly for no words, and every other character comes from some word. |
| Strings.SplitOn | ChineseWeather.py:126 | The script never splits the text; `SplitOn` is the reference meaning of "the lines of a text" (`str.split("\n")`) against which `make_text`'s three-line result is stated. It gives at least one piece, and no piece contains the separator. |
| Strings.SplitOnAppend | ChineseWeather.py:126 | A separator-free piece followed by a separator splits off as the first piece. |
| Strings.IntToDecimal | Testing/IconWeather/code.py:108 | `str(n)` is a decimal numeral that parses back to `n`. |
| Strings.DigitsRoundTrip | Testing/IconWeather/code.py:108 | The digits of a natural number evaluate back to it. |
| Topology.SlotOf | Final.py:175-184 | Logical index `i < n` addresses `left[i]`, and `i >= n` addresses `right[2n-1-i]`. The slot is valid and maps back to `i`. |
| Topology.UBijection | Final.py:175-184 | The U addressing is a bijection between `0..2n-1` and the `2n` physical pixels. Index 0 is `left[0]` and index `2n-1` is `right[0]`. |
| Topology.SetU | Final.py:175-184 | `set_u_index` gives exactly the addressed pixel the colour. Every other physical pixel, and every other logical index, keeps its colour. |
| Topology.FillAll | Final.py:163-165 | `fill_all(c)` makes every pixel of both strips `c`. |
| Topology.ClearU | Final.py:186-189 | `clear_u()` makes every pixel of both strips black. |
| Topology.PaintFrom | Final.py:311-314 | Painting the indices from `i0` on gives each its colour and leaves the earlier ones alone. |
| Topology.PaintU | Final.py:328-332 | Painting the whole U: index `k` shows `cols[k]`. The left strip reads `cols[0..n)` top-down and the right strip reads `cols[n..2n)` bottom-up. |
| Topology.Scatter | Final.py:398-400 | After the spark loop, an index shows the spark colour exactly when it was picked. Every other index keeps its colour. |
| Modes.NextMode | Final.py:253-254 | `(mode + 1) % len(MODE_NAMES)` is a valid mode: the successor, or OFF after the last mode. |
| Modes.PressesAdvance | Final.py:217-228 | `k` presses from a valid mode give `(mode + k) % 8`. |
| Modes.FullCycle | Final.py:217-228 | Eight presses return to the starting mode, and no smaller positive number of presses does. |
| Modes.OnButton | Final.py:253-256 | On a falling edge the mode advances and every pixel of both strips is blanked and committed. Without one, nothing changes. |
| Envelope.Follow | Final.py:263-266 | The follower moves from the old value toward the input without overshooting, and rises strictly on a larger input. The remaining gap shrinks by `1 - ATTACK` on a rise and by `1 - RELEASE` on a fall. |
| Envelope.NudgeGain | Final.py:273-277 | Before the clamp the gain rises iff `env_n < 0.7 * target`, falls iff `env_n > 1.3 * target`, and is unchanged iff `env_n` lies between the two. |
| Envelope.AdaptGain | Final.py:272-278 | The gain always ends in `[AUTO_GAIN_MIN, AUTO_GAIN_MAX]`. From an in-range gain it does not fall when quiet, does not rise when loud, and stays put in the dead band. |
| Envelope.Normalize | Final.py:269 | `clamp01(e / ENV_MAX)` lies in `[0, 1]`: 1 from `ENV_MAX` up, 0 at or below 0, exact scaling in between. |
| Envelope.NormalizeMonotone | Final.py:269 | Normalisation preserves order. |
| Envelope.Punch | Final.py:286 | `punch` lies in `[0, 1]` and is positive iff `env_n > slow_env_n`. |
| Envelope.Update | Final.py:260-286 | One frame runs the chain in the loop's order. The RMS is scaled by `MIC_GAIN` and the current gain, and the fast envelope follows it (`Follow`, attack 0.55, release 0.12). `env_n` is that envelope normalised, and the gain adapts to `env_n` (`AdaptGain`). The slow envelope follows the fast one (0.02, 0.003), `slow_env_n` is it normalised, and `punch` is `Punch(env_n, slow_env_n)`. All three signals lie in `[0, 1]`, the gain stays in range, and a non-negative RMS keeps both envelopes non-negative. |
| Envelope.UpdateTracks | Final.py:260-284 | Over one frame, `env` moves toward the scaled RMS and `slow_env` moves toward `env`, neither overshooting its target. |
| Envelope.SilenceStaysSilent | Final.py:260-286 | From silence, a silent block yields zero loudness, zero punch and zero envelopes. |
| Render.LerpColor | Final.py:200-203 | Each channel of `lerp_color` lies between the two colours' channels and stays within a byte. |
| Render.Scale | Final.py:358-360 | Scaling a colour by a unit brightness keeps it within a byte and never brightens a channel. |
| Render.BarLevel | Final.py:337-339 | `level` lies in `[0, n]` and is `env_n * n` rounded half up. |
| Render.BarLevelMonotone | Final.py:337-339 | A louder frame never lights fewer pixels. |
| Render.NextPeak | Final.py:342-345 | The peak jumps up to a louder `env_n`. Otherwise it drops by `BAR_PEAK_FALL`, or to exactly 0 if that would go below 0. A unit input keeps it a unit value. |
| Render.PeakIndex | Final.py:366-369 | `peak_idx` is always in `[0, n-1]` and always exists for a non-negative peak. Below the last pixel it is `peak * n + 0.2` truncated; the last pixel is chosen only when `peak * n + 0.2` reaches `n - 1`, which is the cap `min(int(peak * n + 0.2), n - 1)`. |
| Render.BarPixel | Final.py:350-360 | A lit bar pixel is a valid colour and never black. |
| Render.RenderBar | Final.py:336-373 | Both strips show the same column. The peak slot shows `Render.PeakColor` (white over 0.05, else black). Every other pixel shows `Render.BarPixel`'s gradient colour below the level and black from the level on. With unit loudness a pixel is non-black exactly when it is below the level, except at the peak slot, which is non-black exactly when the peak is over 0.05. |
| Render.QuietBarDark | Final.py:336-373 | At zero loudness with the peak marker at rest, the marker stays at 0 and every pixel of the column is black. |
| Render.SparkCount | Final.py:396 | `int(loud * 6 + punch * 8 + 0.4)` lies in `[0, 14]` on unit inputs. |
| Render.SparkCountMonotone | Final.py:396 | More loudness or punch never gives fewer sparks. |
| Render.RenderSparkle | Final.py:389-402 | Every pixel shows the base colour or the sparkle colour. It shows the sparkle colour exactly when its index was drawn. |
| Render.SoundColor | Final.py:375-386 | Without a hit the colour is the plain hue. A hit's white flash only brightens a valid colour. |
| Render.PulseBrightness | Final.py:406 | The pulse brightness lies in `[0.05, 1]` on non-negative signals. |
| Render.PulseBrightnessMonotone | Final.py:406 | The pulse brightness is non-decreasing in both signals. |
| Render.PulseColor | Final.py:404-411 | The pulse colour is warm white scaled within its channel maxima. Silence gives `(12, 11, 9)`. |
| Render.BreatheLevel | Final.py:307 | The breathing brightness lies in `[0.30, 1.0]`. |
| Render.NextHueBase | Final.py:306 | `hue_base` stays in `[0, 1)` and differs from the un-wrapped drift by a whole number. |
| Render.BreatheHue | Final.py:312 | Pixel `i`'s hue lies in `[hue_base, hue_base + 0.65)`. |
| Render.RenderBreathe | Final.py:304-315 | Every logical index shows the soft rainbow colour of its own hue at the breathing brightness. |
| Render.FlowSpeed | Final.py:318 | The flow speed lies in `[0.18, 1.48]` on unit signals. |
| Render.NextFlowPhase | Final.py:319 | `flow_phase` stays in `[0, 1)` and differs from the un-wrapped advance by a whole number. |
| Render.FlowLevel | Final.py:322 | The flow brightness lies in `[0.18, 1]` on non-negative signals. |
| Render.FlowHue | Final.py:330 | Each pixel's flow hue lies in `[0, 1)`. |
| Render.RenderFlow | Final.py:317-334 | Every logical index shows the soft rainbow colour of its own wrapped hue at the flow brightness. |
| Engine.RenderMode | Final.py:296-412 | Each valid mode commits a frame. OFF is all black. STATIC, SOUND_COLOR and SOUND_PULSE paint one colour everywhere. SOUND_BAR moves the peak to `NextPeak` and lights a mirrored column: a pixel is lit exactly when it is below `BarLevel`, except at the peak slot, which is lit exactly when the peak is over 0.05. SOUND_SPARKLE shows the spark colour exactly at the first `SparkCount` drawn indices and the base colour elsewhere. The two rainbow modes advance their hue base or phase, and show `soft_hot` of each index's own hue at the mode's level. Each animation accumulator changes only in its own mode and stays in range. |
| Engine.Step | Final.py:248-412 | The mode advances exactly on a press, and then a dark frame is committed first. The new signal state is one `Envelope.Update` on the block's RMS. The new buffer and accumulators are what `RenderMode` draws for the new mode from that frame, over the buffer the button left. The rendered frame is committed last, and the loop invariant is preserved. |
| Engine.BootIsSound | Final.py:228-241 | The boot state (bar mode, silence, unit gain, dark strips) satisfies the loop invariant. |
| Engine.SilentFirstFrame | Final.py:228-241 | A silent first frame without a press stays in bar mode and commits one all-dark frame. |
| IconWeather.IconFor | Testing/IconWeather/code.py:93-103 | The day test is `Strings.EndsWith(tag, "d")`. Each icon is chosen for exactly its band of codes: tornado 781, bolt 200–232, drizzle 300–321, heavy rain 502–531, snow 600–622, fog 700–771. Code 800 gives the sun iff the tag ends in "d", otherwise the moon. Every other code, including 500 and 501, gives the cloud. |
| IconWeather.TAscii | Testing/IconWeather/code.py:106-108 | A missing temperature gives "--". Otherwise the result is a decimal numeral that parses back to the rounded temperature, followed by 'C' for metric units and 'F' otherwise (`IconWeather.UnitLetter`). |
| IconWeather.DashesToSpaces | Testing/IconWeather/code.py:113 | Replacing `_` and `-` by spaces keeps every other character in place, leaves neither separator, and changes nothing in a string that has none. |
| IconWeather.Capitalize | Testing/IconWeather/code.py:114 | `p[:1].upper() + p[1:]` upper-cases the first character, keeps the rest, and keeps a word a word. |
| IconWeather.CapitalizeIdempotent | Testing/IconWeather/code.py:114 | Capitalising twice is capitalising once. |
| IconWeather.NiceCase | Testing/IconWeather/code.py:110-114 | Empty input gives "". The output has no `_` or `-` and no leading, trailing or doubled whitespace. Splitting it gives exactly the input's words, each capitalised (`IconWeather.CapitalizeAll`), joined by `Strings.Join`. |
| IconWeather.NiceCaseIdempotent | Testing/IconWeather/code.py:110-114 | Applying `nice_case` twice equals applying it once. |
| IconWeather.TempAvail | Testing/IconWeather/code.py:135-136 | The right-hand column is never narrower than 30 pixels. |
| IconWeather.MeasuredText | Testing/IconWeather/code.py:137 | An empty label is measured as "88F"; any other text is measured as itself. |
| IconWeather.AutosizeTemp | Testing/IconWeather/code.py:134-143 | The label gets the largest scale in 4, 3, 2, 1 at which its text fits, and is re-anchored. If none fits, the label is unchanged. The text never changes. |
| IconWeather.FitsDownward | Testing/IconWeather/code.py:139-140 | A text that fits at some scale fits at every smaller positive scale. |
| IconWeather.IconAvailH | Testing/IconWeather/code.py:69-71 | The icon area's height is at least 8. |
| IconWeather.IconAvailW | Testing/IconWeather/code.py:72 | The icon area's width is at least 8. |
| IconWeather.IconScale | Testing/IconWeather/code.py:77-78 | `sx` is the largest scale from 1 to 4 at which the icon fits its area in both directions. It is 1 when not even scale 1 fits. |
| IconWeather.QuotientFit | Testing/IconWeather/code.py:77 | With floor division, `i * s <= a` holds exactly when `s <= a // i`. So `min(avail_w // iw, avail_h // ih)` is the largest fitting scale. |
| IconWeather.LoadScaledIcon | Testing/IconWeather/code.py:62-83 | A failed load or an empty bitmap gives no icon, and any other bitmap is placed at `IconScale`'s scale. The icon is centred in both directions: the gap after it equals the gap before it, or is one pixel more. When scale 1 fits, the scaled box lies inside the area. |
| IconWeather.Description | Testing/IconWeather/code.py:152 | A missing or empty description reads as "clear"; any other description is kept as it is. |
| IconWeather.CondText | Testing/IconWeather/code.py:161 | The condition text starts with the description. It equals the description exactly when there is no feels-like temperature. |
| IconWeather.Take | Testing/IconWeather/code.py:162 | `s[:40]` is the prefix of length `min(len(s), 40)`. |
| IconWeather.UpdateUi | Testing/IconWeather/code.py:145-166 | With an empty weather list the screen shows the sun and "Clear". A missing `id` means code 800 with the entry's tag, and a missing `icon` means tag "01d", so both missing shows the sun. The condition label is at most 40 characters, the first 40 of the condition text. |
| ChineseWeather.CondMapGood | ChineseWeather.py:20-69 | Every condition key starts and ends with a lower-case letter. Every value is a non-empty single line, so a hit never falls back. |
| ChineseWeather.CityMapGood | ChineseWeather.py:14-17 | Every city value is a non-empty single line. |
| ChineseWeather.CnOrEnCity | ChineseWeather.py:71-72 | A known city gives its Chinese name. An unknown name is returned unchanged, and a missing name gives "". |
| ChineseWeather.CondKey | ChineseWeather.py:77 | The lookup key is the lower-cased description with a whitespace-only prefix and suffix removed. It has no surrounding whitespace and no upper-case ASCII letter. |
| ChineseWeather.CnOrEnCond | ChineseWeather.py:74-79 | An empty description gives "". A hit on the lower-cased, stripped key gives the Chinese text, and a miss gives the original description unchanged. |
| ChineseWeather.CondVariant | ChineseWeather.py:77 | Any case spelling of a condition key, padded with whitespace on either side, gives that key's Chinese text. |
| ChineseWeather.Deg | ChineseWeather.py:118-120 | The label ends in "°F" iff the units are imperial, otherwise in "°C". It is preceded by a numeral that parses back to the rounded temperature. |
| ChineseWeather.MakeText | ChineseWeather.py:122-126 | The text is exactly three lines: the city line (`ChineseWeather.CityLine`), the degree label and the condition. This holds when neither input holds a line break. |
| ChineseWeather.ThreeLines | ChineseWeather.py:126 | Three newline-free pieces joined by newlines split back into those pieces. |

## Left out

- Hardware setup in Final.py is not modelled: the NeoPixel objects, the PDM microphone, the button pin and the debouncer. The debounced falling edge is an input of a frame.
- `mic.record` and `normalized_rms_u16`/`mean_u16` are not modelled: the block RMS is a square root over raw samples. The normalised RMS is an input of a frame; it is non-negative for the invariant to hold.
- `apply_gamma`, `hsv_to_rgb` and `rainbow_soft_hot` are function parameters (`Render.Hsv`, `Render.SoftHot`) because their bodies are floating-point power and sector maths. Properties that depend on their outputs are stated for whatever they return.
- `math.sin(now * 2.0)` is an input in `[-1, 1]`.
- `random.randrange` is a caller-supplied sequence of indices in `[0, 2n)`.
- `time.monotonic`, `dt` and the frame-pacing sleep are not modelled: `dt` is an input, and the pacing does not affect the pixels.
- The `dbg` output and the `DEBUG` switch are not modelled.
- `draw_bar` is not modelled because the main loop never calls it; the bar mode draws its own column.
- All signal arithmetic is exact real arithmetic. Float rounding is not modelled; for example, `0.48 * 0.7` is taken exactly.
- The pixel buffers are not clamped to bytes: a colour computed from an out-of-range input stays out of range in the model, as it would reach the NeoPixel library.
- The Wi-Fi connection, HTTP requests, JSON decoding, fonts, labels, bitmaps and the display of both weather screens are not modelled. This also covers `fetch_weather`, `show_error`, both polling loops and the `cod` check. A decoded reply is a record of `Option` fields.
- The Chinese screen's main loop, which picks `description` or `main` from the reply, is not modelled; `make_text` takes the chosen text.
- `cn_or_en_cond`'s unused `have_ascii` parameter is not modelled.
- IconWeather.UpdateUi: a JSON `null` value is not modelled; `None` in the model means the key is absent. A null `"id"` would raise in `icon_for`'s comparisons. A null `"icon"` becomes the text "None" through `str(tag)`, so code 800 shows the moon, whereas the model would show the sun. A null `"description"` reads as "clear" in both. `nice_case`'s `str(s)` conversion of a non-string is not modelled either.
- IconWeather.LoadScaledIcon: when not even scale 1 fits, the script still draws the icon at scale 1, centred and overflowing its area. The contract states containment only when scale 1 fits; the centring is stated in every case.
- The auto-gain's long-run convergence toward its target is not stated: it depends on the room's loudness over time.
- Testing/VivianV1.py, Testing/LightTesting.py and Testing/ButtonTesting.py are not part of this model. They are display, LED and button demos made of I/O only.

=== FILE: chinese_weather.dfy ===
/**
  The localisation helpers of the Chinese weather screen (ChineseWeather.py):
  the city and condition lookups with their English fallbacks, the degree
  label, and the three-line text shown on the display. The Wi-Fi, the HTTP
  request, the font and the label are not modelled.
 */
module ChineseWeather {
  import opened Numeric
  import opened Wrappers
  import opened Strings

  const UNITS := "imperial"

  /** English city names with a Chinese rendering. */
  const CITY_MAP: map<string, string> := map[
    "San Francisco" := "旧金山",
    "Daly City" := "戴利城"
  ]

  /** Clear sky, clouds and obscurations. */
  const COND_SKY: map<string, string> := map[
    "clear sky" := "晴",
    "few clouds" := "多云",
    "scattered clouds" := "多云",
    "broken clouds" := "多云",
    "overcast clouds" := "阴",
    "mist" := "雾",
    "smoke" := "烟",
    "haze" := "霾",
    "dust" := "扬尘",
    "fog" := "雾",
    "sand" := "沙尘",
    "ash" := "灰",
    "squalls" := "阵风",
    "tornado" := "龙卷风"
  ]

  /** Rain. */
  const COND_RAIN: map<string, string> := map[
    "light rain" := "小雨",
    "moderate rain" := "中雨",
    "heavy intensity rain" := "大雨",
    "very heavy rain" := "暴雨",
    "extreme rain" := "特大暴雨",
    "freezing rain" := "冻雨",
    "light intensity shower rain" := "小阵雨",
    "shower rain" := "阵雨",
    "heavy intensity shower rain" := "大阵雨",
    "ragged shower rain" := "阵雨"
  ]

  /** Thunderstorms. */
  const COND_STORM: map<string, string> := map[
    "thunderstorm" := "雷雨",
    "thunderstorm with light rain" := "雷阵雨",
    "thunderstorm with rain" := "雷阵雨",
    "thunderstorm with heavy rain" := "强雷阵雨",
    "light thunderstorm" := "雷雨",
    "heavy thunderstorm" := "强雷雨",
    "ragged thunderstorm" := "雷雨"
  ]

  /** Snow and sleet. */
  const COND_SNOW: map<string, string> := map[
    "light snow" := "小雪",
    "snow" := "雪",
    "heavy snow" := "大雪",
    "sleet" := "雨夹雪",
    "light shower sleet" := "小阵雪",
    "shower sleet" := "阵雪",
    "light rain and snow" := "小雨夹雪",
    "rain and snow" := "雨夹雪",
    "light shower snow" := "小阵雪",
    "shower snow" := "阵雪",
    "heavy shower snow" := "大阵雪"
  ]

  /** Drizzle. */
  const COND_DRIZZLE: map<string, string> := map[
    "drizzle" := "小雨",
    "light intensity drizzle" := "小雨",
    "heavy intensity drizzle" := "大雨",
    "drizzle rain" := "小雨",
    "heavy intensity drizzle rain" := "大雨",
    "shower drizzle" := "阵雨"
  ]

  /** Lower-case OpenWeatherMap descriptions with a Chinese rendering; the
      groups share no key. */
  const COND_MAP: map<string, string> := COND_SKY + COND_RAIN + COND_STORM + COND_SNOW + COND_DRIZZLE

  /** A table entry that can appear on its own display line. */
  predicate GoodValue(v: string) {
    |v| > 0 && '\n' !in v
  }

  /** A key that starts and ends with a lower-case letter, so it has no
      surrounding whitespace. */
  predicate PlainKey(k: string) {
    |k| > 0 && 'a' <= k[0] <= 'z' && 'a' <= k[|k| - 1] <= 'z'
  }

  /** A plain key is its own stripped form. */
  lemma PlainKeyTrimmed(k: string)
    ensures PlainKey(k) ==> |k| > 0 && Trimmed(k)
  {
  }

  /** A condition table whose keys are all plain. */
  predicate KeysPlain(m: map<string, string>) {
    forall k :: k in m ==> PlainKey(k)
  }

  /** A table whose values all fit on one display line. */
  predicate ValuesGood(m: map<string, string>) {
    forall k :: k in m ==> GoodValue(m[k])
  }

  /** Merging two tables keeps both properties. */
  lemma UnionGood(a: map<string, string>, b: map<string, string>)
    ensures KeysPlain(a) && KeysPlain(b) ==> KeysPlain(a + b)
    ensures ValuesGood(a) && ValuesGood(b) ==> ValuesGood(a + b)
  {
    if ValuesGood(a) && ValuesGood(b) {
      forall k | k in a + b
        ensures GoodValue((a + b)[k])
      {
        if k in b {
          assert (a + b)[k] == b[k];
        } else {
          assert (a + b)[k] == a[k];
        }
      }
    }
  }

  lemma SkyKeys()
    ensures forall k :: k in COND_SKY ==> PlainKey(k)
  {
  }

  lemma SkyValues()
    ensures forall k :: k in COND_SKY ==> GoodValue(COND_SKY[k])
  {
  }

  lemma RainKeys()
    ensures forall k :: k in COND_RAIN ==> PlainKey(k)
  {
  }

  lemma RainValues()
    ensures forall k :: k in COND_RAIN ==> GoodValue(COND_RAIN[k])
  {
  }

  lemma StormKeys()
    ensures forall k :: k in COND_STORM ==> PlainKey(k)
  {
  }

  lemma StormValues()
    ensures forall k :: k in COND_STORM ==> GoodValue(COND_STORM[k])
  {
  }

  lemma SnowKeys()
    ensures forall k :: k in COND_SNOW ==> PlainKey(k)
  {
  }

  lemma SnowValues()
    ensures forall k :: k in COND_SNOW ==> GoodValue(COND_SNOW[k])
  {
  }

  lemma DrizzleKeys()
    ensures forall k :: k in COND_DRIZZLE ==> PlainKey(k)
  {
  }

  lemma DrizzleValues()
    ensures forall k :: k in COND_DRIZZLE ==> GoodValue(COND_DRIZZLE[k])
  {
  }

  /** Every condition key is non-empty and starts and ends with a lower-case
      letter, so stripping leaves it unchanged; every condition value is a
      non-empty single line, so a hit never falls back to the English text. */
  lemma CondMapGood()
    ensures KeysPlain(COND_MAP) && ValuesGood(COND_MAP)
  {
    SkyKeys();
    SkyValues();
    RainKeys();
    RainValues();
    StormKeys();
    StormValues();
    SnowKeys();
    SnowValues();
    DrizzleKeys();
    DrizzleValues();
    MergeGood(COND_SKY, COND_RAIN, COND_STORM, COND_SNOW, COND_DRIZZLE);
  }

  /** Five good tables merge into a good table. */
  lemma MergeGood(a: map<string, string>, b: map<string, string>, c: map<string, string>,
                  d: map<string, string>, e: map<string, string>)
    requires KeysPlain(a) && KeysPlain(b) && KeysPlain(c) && KeysPlain(d) && KeysPlain(e)
    requires ValuesGood(a) && ValuesGood(b) && ValuesGood(c) && ValuesGood(d) && ValuesGood(e)
    ensures KeysPlain(a + b + c + d + e) && ValuesGood(a + b + c + d + e)
  {
    UnionGood(a, b);
    UnionGood(a + b, c);
    UnionGood(a + b + c, d);
    UnionGood(a + b + c + d, e);
  }

  /** Every city value is a non-empty single line. */
  lemma CityMapGood()
    ensures forall k :: k in CITY_MAP ==> GoodValue(CITY_MAP[k])
  {
  }

  /** `cn_or_en_city(name)`: the Chinese name of a known city, otherwise the
      name itself; a missing name gives "". */
  function CnOrEnCity(name: Option<string>): (r: string)
    ensures name.Some? && name.value in CITY_MAP ==> r == CITY_MAP[name.value]
    ensures name.Some? && name.value !in CITY_MAP ==> r == name.value
    ensures name.None? ==> r == ""
    ensures name.Some? && '\n' !in name.value ==> '\n' !in r
  {
    CityMapGood();
    match name
    case Some(n) => if n in CITY_MAP then CITY_MAP[n] else n
    case None => ""
  }

  /** The key the condition lookup uses: `desc.lower().strip()`. It is the
      lower-cased description with a whitespace-only prefix and suffix cut
      off, and it neither starts nor ends with whitespace. */
  function CondKey(desc: string): (k: string)
    ensures Trimmed(k)
    ensures forall i :: 0 <= i < |k| ==> !('A' <= k[i] <= 'Z')
    ensures TrimOf(k, Lower(desc))
  {
    Strip(Lower(desc))
  }

  /** `cn_or_en_cond(desc)`: "" for an empty description; the Chinese text
      when the normalised description is a table key; otherwise the
      description exactly as given, not normalised. */
  function CnOrEnCond(desc: string): (r: string)
    ensures desc == "" ==> r == ""
    ensures desc != "" && CondKey(desc) in COND_MAP ==> r == COND_MAP[CondKey(desc)]
    ensures desc != "" && CondKey(desc) !in COND_MAP ==> r == desc
    ensures desc != "" && CondKey(desc) in COND_MAP ==> GoodValue(r)
    ensures '\n' !in desc ==> '\n' !in r
  {
    CondMapGood();
    if desc == "" then ""
    else
      var key := CondKey(desc);
      if key in COND_MAP && COND_MAP[key] != "" then COND_MAP[key] else desc
  }

  /** Lower-casing keeps whitespace-only strings whitespace-only. */
  lemma LowerAllSpace(s: string)
    requires AllSpace(s)
    ensures AllSpace(Lower(s))
  {
    forall i | 0 <= i < |s|
      ensures IsSpace(Lower(s)[i])
    {
      assert IsSpace(s[i]);
    }
  }

  /** Case and surrounding whitespace do not matter: any spelling `v` of a
      table key, padded with whitespace on either side, gives that key's
      Chinese text. */
  lemma CondVariant(pre: string, v: string, post: string)
    requires AllSpace(pre) && AllSpace(post)
    requires Lower(v) in COND_MAP
    ensures CnOrEnCond(pre + v + post) == COND_MAP[Lower(v)]
  {
    CondMapGood();
    var key := Lower(v);
    PlainKeyTrimmed(key);
    assert |v| == |key| > 0;
    var desc := pre + v + post;
    assert desc != "";
    LowerAppend(pre, v);
    LowerAppend(pre + v, post);
    LowerAllSpace(pre);
    LowerAllSpace(post);
    StripPadded(Lower(pre), key, Lower(post));
    assert CondKey(desc) == key;
  }

  /** `deg(temp)`: the rounded temperature in decimal, then "°F" exactly
      when the units are imperial and "°C" otherwise. */
  function Deg(temp: real, units: string): (r: string)
    ensures |r| >= 3
    ensures EndsWith(r, "°F") <==> units == "imperial"
    ensures EndsWith(r, "°C") <==> units != "imperial"
    ensures IsDecimal(r[..|r| - 2]) && ParseDecimal(r[..|r| - 2]) == RoundHalfEven(temp)
    ensures '\n' !in r
  {
    var t := IntToDecimal(RoundHalfEven(temp));
    var r := t + (if units == "imperial" then "°F" else "°C");
    assert r[..|r| - 2] == t;
    assert r[|r| - 2..] == (if units == "imperial" then "°F" else "°C");
    r
  }

  /** The first display line: "现在" + city + "是" ("now in <city> it is"). */
  function CityLine(city: string): (r: string)
    ensures |r| == |city| + 3 && r[2..|r| - 1] == city
    ensures '\n' !in city ==> '\n' !in r
  {
    var r := "现在" + city + "是";
    assert forall i :: 0 <= i < |r| ==> r[i] == if i < 2 then "现在"[i] else if i < |r| - 1 then city[i - 2] else '是';
    r
  }

  /** `make_text(temp, city_en, cond_en)`: three lines (the city line, the
      degree label, the condition), so long as neither input holds a line
      break. */
  function MakeText(temp: real, cityEn: Option<string>, condEn: string, units: string): (r: string)
    ensures cityEn.Some? && '\n' !in cityEn.value && '\n' !in condEn ==>
      SplitOn(r, '\n') == [CityLine(CnOrEnCity(cityEn)), Deg(temp, units), CnOrEnCond(condEn)]
    ensures cityEn.None? && '\n' !in condEn ==>
      SplitOn(r, '\n') == [CityLine(""), Deg(temp, units), CnOrEnCond(condEn)]
  {
    var city := CnOrEnCity(cityEn);
    var cond := CnOrEnCond(condEn);
    var line1 := CityLine(city);
    var line2 := Deg(temp, units);
    var r := line1 + "\n" + line2 + "\n" + cond;
    ThreeLines(line1, line2, cond);
    r
  }

  /** Three newline-free pieces joined by two newlines split back into them. */
  lemma ThreeLines(a: string, b: string, c: string)
    ensures '\n' !in a && '\n' !in b && '\n' !in c ==>
      SplitOn(a + "\n" + b + "\n" + c, '\n') == [a, b, c]
  {
    if '\n' !in a && '\n' !in b && '\n' !in c {
      assert a + "\n" + b + "\n" + c == a + ['\n'] + (b + ['\n'] + c);
      SplitOnAppend(a, '\n', b + ['\n'] + c);
      SplitOnAppend(b, '\n', c);
      SplitOnNone(c, '\n');
    }
  }
}

=== FILE: engine.dfy ===
/**
  One frame of Final.py's main loop as a pure step: the button check (with
  its blanking commit), the signal update, and the renderer of the active
  mode (with its commit). The frames committed by `show()` during the step
  are returned in order.
 */
module Engine {
  import opened Wrappers
  import opened Topology
  import opened Modes
  import opened Envelope
  import opened Render

  /** Pixels per strip. */
  const N_PER_SIDE := 5

  /** Mode-local animation state: the rainbow hue drift, the flow phase and
      the bar's peak marker. */
  datatype Anim = Anim(hueBase: real, flowPhase: real, barPeak: real)

  /** Everything the main loop carries from one frame to the next. */
  datatype Driver = Driver(mode: int, signal: SignalState, anim: Anim, strips: Strips)

  /** What the hardware and the clock supply to one frame: the debounced
      falling edge, the block's normalised RMS, the time since the previous
      frame, `math.sin(now * 2.0)`, and a stream of random pixel indices. */
  datatype Inputs = Inputs(fell: bool, rms01: real, dt: real, sinNow: real, picks: seq<int>)

  /** The state after a frame, and the buffers committed during it. */
  datatype StepResult = StepResult(next: Driver, shown: seq<Strips>)

  /** The driver as it boots: bar mode, silent signals, unit gain, dark strips. */
  const BOOT := Driver(START_MODE, Envelope.INITIAL, Anim(0.0, 0.0, 0.0), ClearU(N_PER_SIDE))

  /** The invariant of the main loop. */
  predicate Sound(d: Driver) {
    && ValidMode(d.mode)
    && Sane(d.signal)
    && 0.0 <= d.anim.hueBase < 1.0
    && 0.0 <= d.anim.flowPhase < 1.0
    && 0.0 <= d.anim.barPeak <= 1.0
    && Fits(d.strips, N_PER_SIDE)
  }

  /** Enough random draws for the largest spark count, each a logical index. */
  predicate ValidPicks(picks: seq<int>) {
    && |picks| >= MAX_SPARKS
    && forall k :: 0 <= k < |picks| ==> 0 <= picks[k] < 2 * N_PER_SIDE
  }

  /** The outcome of the mode dispatch: whether a branch ran (and committed). */
  datatype Rendered = Rendered(anim: Anim, strips: Strips, shown: bool)

  /** The `if mode == ... elif ...` dispatch. Every valid mode commits a
      frame, and the frame is the one its renderer promises: OFF is dark;
      STATIC, SOUND_COLOR and SOUND_PULSE paint one colour everywhere;
      SOUND_BAR moves its peak marker and lights a mirrored column up to the
      level, with the marker on top; SOUND_SPARKLE shows the spark colour
      exactly at the drawn indices; the two rainbow modes advance their hue
      and show each index's own hue. Each accumulator is touched only by its
      own mode and stays in range. */
  function RenderMode(mode: int, anim: Anim, strips: Strips, f: Frame, inp: Inputs, hsv: Hsv, softHot: SoftHot): (r: Rendered)
    requires Fits(strips, N_PER_SIDE)
    requires ValidPicks(inp.picks)
    requires -1.0 <= inp.sinNow <= 1.0
    requires 0.0 <= f.envN <= 1.0 && 0.0 <= f.punch <= 1.0
    ensures Fits(r.strips, N_PER_SIDE)
    ensures r.shown <==> ValidMode(mode)
    ensures !ValidMode(mode) ==> r.strips == strips && r.anim == anim
    ensures mode == MODE_OFF ==> Uniform(r.strips, N_PER_SIDE, Black)
    ensures mode == MODE_STATIC ==> Uniform(r.strips, N_PER_SIDE, PASTEL_RED)
    ensures mode == MODE_SOUND_COLOR ==> Uniform(r.strips, N_PER_SIDE, SoundColor(f.envN, f.punch, hsv))
    ensures mode == MODE_SOUND_PULSE ==> Uniform(r.strips, N_PER_SIDE, PulseColor(f.envN, f.punch))
    ensures mode == MODE_SOUND_BAR ==>
      && r.anim.barPeak == NextPeak(anim.barPeak, f.envN)
      && r.strips.left == r.strips.right
      && BarLit(r.strips.left, N_PER_SIDE, f.envN, r.anim.barPeak)
    ensures mode == MODE_SOUND_SPARKLE ==> SparkleShown(r.strips, N_PER_SIDE, f.envN, f.punch, hsv, inp.picks)
    ensures mode == MODE_RAINBOW_BREATHE ==>
      && r.anim.hueBase == NextHueBase(anim.hueBase, inp.dt)
      && BreatheShown(r.strips, N_PER_SIDE, r.anim.hueBase, BreatheLevel(inp.sinNow), softHot)
    ensures mode == MODE_RAINBOW_FLOW ==>
      && r.anim.flowPhase == NextFlowPhase(anim.flowPhase, inp.dt, FlowSpeed(f.envN, f.punch))
      && FlowShown(r.strips, N_PER_SIDE, r.anim.flowPhase, FlowLevel(f.envN, f.punch), softHot)
    ensures mode != MODE_RAINBOW_BREATHE ==> r.anim.hueBase == anim.hueBase
    ensures mode != MODE_RAINBOW_FLOW ==> r.anim.flowPhase == anim.flowPhase
    ensures mode != MODE_SOUND_BAR ==> r.anim.barPeak == anim.barPeak
    ensures 0.0 <= anim.hueBase < 1.0 ==> 0.0 <= r.anim.hueBase < 1.0
    ensures 0.0 <= anim.flowPhase < 1.0 ==> 0.0 <= r.anim.flowPhase < 1.0
    ensures 0.0 <= anim.barPeak <= 1.0 ==> 0.0 <= r.anim.barPeak <= 1.0
  {
    var n := N_PER_SIDE;
    if mode == MODE_OFF then
      Rendered(anim, ClearU(n), true)
    else if mode == MODE_STATIC then
      Rendered(anim, FillAll(n, PASTEL_RED), true)
    else if mode == MODE_RAINBOW_BREATHE then
      var hue := NextHueBase(anim.hueBase, inp.dt);
      Rendered(anim.(hueBase := hue), RenderBreathe(n, hue, BreatheLevel(inp.sinNow), softHot), true)
    else if mode == MODE_RAINBOW_FLOW then
      var phase := NextFlowPhase(anim.flowPhase, inp.dt, FlowSpeed(f.envN, f.punch));
      Rendered(anim.(flowPhase := phase), RenderFlow(n, phase, FlowLevel(f.envN, f.punch), softHot), true)
    else if mode == MODE_SOUND_BAR then
      var bar := RenderBar(n, f.envN, f.punch, anim.barPeak);
      Rendered(anim.(barPeak := bar.peak), bar.strips, true)
    else if mode == MODE_SOUND_COLOR then
      Rendered(anim, FillAll(n, SoundColor(f.envN, f.punch, hsv)), true)
    else if mode == MODE_SOUND_SPARKLE then
      Rendered(anim, RenderSparkle(n, f.envN, f.punch, hsv, inp.picks), true)
    else if mode == MODE_SOUND_PULSE then
      Rendered(anim, FillAll(n, PulseColor(f.envN, f.punch)), true)
    else
      Rendered(anim, strips, false)
  }

  /** One pass of the main loop. The mode advances exactly on a fall, and
      then a dark frame is committed first; the signal chain runs once on the
      block's RMS; the renderer of the (new) mode draws from that frame's
      signals over the button's buffers, and its frame is committed last; the
      loop invariant is kept for a non-negative RMS. */
  function Step(d: Driver, inp: Inputs, hsv: Hsv, softHot: SoftHot): (r: StepResult)
    requires Fits(d.strips, N_PER_SIDE)
    requires ValidPicks(inp.picks)
    requires -1.0 <= inp.sinNow <= 1.0
    ensures r.next.signal == Envelope.Update(d.signal, inp.rms01).state
    ensures var t := OnButton(d.mode, d.strips, N_PER_SIDE, inp.fell);
      var out := RenderMode(t.mode, d.anim, t.strips, Envelope.Update(d.signal, inp.rms01), inp, hsv, softHot);
      r.next.anim == out.anim && r.next.strips == out.strips
    ensures r.next.mode == if inp.fell then NextMode(d.mode) else d.mode
    ensures |r.shown| == (if inp.fell then 1 else 0) + (if ValidMode(r.next.mode) then 1 else 0)
    ensures inp.fell ==> Fits(r.shown[0], N_PER_SIDE) && forall sl :: ValidSlot(N_PER_SIDE, sl) ==> Get(r.shown[0], N_PER_SIDE, sl) == Black
    ensures ValidMode(r.next.mode) ==> r.shown[|r.shown| - 1] == r.next.strips
    ensures Sound(d) && 0.0 <= inp.rms01 ==> Sound(r.next)
  {
    var t := OnButton(d.mode, d.strips, N_PER_SIDE, inp.fell);
    var f := Envelope.Update(d.signal, inp.rms01);
    var out := RenderMode(t.mode, d.anim, t.strips, f, inp, hsv, softHot);
    var shown := (if t.blanked then [t.strips] else []) + (if out.shown then [out.strips] else []);
    StepResult(Driver(t.mode, f.state, out.anim, out.strips), shown)
  }

  /** The boot state satisfies the loop invariant. */
  lemma BootIsSound()
    ensures Sound(BOOT)
  {
  }

  /** The first frame after boot, in silence and without a press, draws the
      bar mode with nothing lit: every pixel is dark, and that dark frame is
      the one frame committed. */
  lemma SilentFirstFrame(dt: real, sinNow: real, picks: seq<int>, hsv: Hsv, softHot: SoftHot)
    requires ValidPicks(picks) && -1.0 <= sinNow <= 1.0
    ensures var r := Step(BOOT, Inputs(false, 0.0, dt, sinNow, picks), hsv, softHot);
      && r.next.mode == MODE_SOUND_BAR
      && |r.shown| == 1
      && forall sl :: ValidSlot(N_PER_SIDE, sl) ==> Get(r.shown[0], N_PER_SIDE, sl) == Black
  {
    var inp := Inputs(false, 0.0, dt, sinNow, picks);
    var r := Step(BOOT, inp, hsv, softHot);
    var t := OnButton(BOOT.mode, BOOT.strips, N_PER_SIDE, false);
    assert t.mode == MODE_SOUND_BAR && !t.blanked;
    var f := Envelope.Update(BOOT.signal, 0.0);
    SilenceStaysSilent(BOOT.signal);
    assert f.envN == 0.0;
    var bar := RenderBar(N_PER_SIDE, 0.0, f.punch, 0.0);
    QuietBarDark(N_PER_SIDE, f.punch);
    var out := RenderMode(t.mode, BOOT.anim, t.strips, f, inp, hsv, softHot);
    assert out.strips == bar.strips;
    assert r.next.strips == out.strips && r.shown == [out.strips];
    forall sl | ValidSlot(N_PER_SIDE, sl)
      ensures Get(r.shown[0], N_PER_SIDE, sl) == Black
    {
      assert bar.strips.left[sl.pos] == Black;
    }
  }
}

=== FILE: envelope.dfy ===
/**
  The per-frame signal update of Final.py: the fast envelope follower, its
  normalisation, the adaptive auto-gain, the slow baseline follower and the
  transient ("punch") signal. The block RMS (`normalized_rms_u16`, a square
  root over the microphone samples) is an input of the frame.
 */
module Envelope {
  import opened Numeric

  const ATTACK := 0.55
  const RELEASE := 0.12
  const MIC_GAIN := 21.0
  const ENV_MAX := 0.15

  const AUTO_GAIN := true
  const AUTO_GAIN_TARGET := 0.48
  const AUTO_GAIN_RISE := 0.10
  const AUTO_GAIN_FALL := 0.04
  const AUTO_GAIN_MIN := 0.08
  const AUTO_GAIN_MAX := 5.0

  const SLOW_ENV_ATTACK := 0.02
  const SLOW_ENV_RELEASE := 0.003
  const PUNCH_BOOST := 3.5

  /** The quiet and loud thresholds of the auto-gain dead band. */
  const GAIN_LOW := AUTO_GAIN_TARGET * 0.7
  const GAIN_HIGH := AUTO_GAIN_TARGET * 1.3

  /** The state carried from frame to frame by the signal chain. */
  datatype SignalState = SignalState(env: real, slowEnv: real, autoGain: real)

  /** The values at boot: silence, unit gain. */
  const INITIAL := SignalState(0.0, 0.0, 1.0)

  /** What one frame of the signal chain hands to the renderers. */
  datatype Frame = Frame(state: SignalState, rms: real, envN: real, slowEnvN: real, punch: real)

  /** The invariant every frame keeps. */
  predicate Sane(s: SignalState) {
    && 0.0 <= s.env
    && 0.0 <= s.slowEnv
    && AUTO_GAIN_MIN <= s.autoGain <= AUTO_GAIN_MAX
  }

  /** An attack/release follower: rise toward `input` at rate `attack`,
      fall toward it at rate `release`. The result lies between the old
      value and the input, moves strictly toward a larger input, and the
      remaining gap is the old gap less the fraction `rate` of it, for the
      rate of the direction taken. */
  function Follow(prev: real, input: real, attack: real, release: real): (r: real)
    requires 0.0 < attack <= 1.0 && 0.0 < release <= 1.0
    ensures input > prev ==> prev < r <= input
    ensures input <= prev ==> input <= r <= prev
    ensures input > prev ==> input - r == (input - prev) - (input - prev) * attack
    ensures input <= prev ==> input - r == (input - prev) - (input - prev) * release
  {
    if input - prev > 0.0 then Advance(prev, input - prev, attack)
    else Advance(prev, input - prev, release)
  }

  /** The quiet/loud nudge of the auto-gain before its clamp: it raises the
      gain exactly when the loudness is under the low threshold, lowers it
      exactly when it is over the high threshold, and leaves it alone in
      between. */
  function NudgeGain(gain: real, envN: real): (r: real)
    ensures r > gain <==> envN < GAIN_LOW
    ensures r < gain <==> envN > GAIN_HIGH
    ensures r == gain <==> GAIN_LOW <= envN <= GAIN_HIGH
  {
    var target := AUTO_GAIN_TARGET;
    if envN < target * 0.7 then gain + AUTO_GAIN_RISE * (target - envN)
    else if envN > target * 1.3 then gain - AUTO_GAIN_FALL * (envN - target)
    else gain
  }

  /** The auto-gain after a frame: always within [AUTO_GAIN_MIN, AUTO_GAIN_MAX];
      from a gain in that range it never falls when the room is quiet,
      never rises when it is loud, and stays put in the dead band. */
  function AdaptGain(gain: real, envN: real): (r: real)
    ensures AUTO_GAIN_MIN <= r <= AUTO_GAIN_MAX
    ensures AUTO_GAIN_MIN <= gain <= AUTO_GAIN_MAX && envN < GAIN_LOW ==> r >= gain
    ensures AUTO_GAIN_MIN <= gain <= AUTO_GAIN_MAX && envN > GAIN_HIGH ==> r <= gain
    ensures AUTO_GAIN_MIN <= gain <= AUTO_GAIN_MAX && GAIN_LOW <= envN <= GAIN_HIGH ==> r == gain
  {
    if AUTO_GAIN then Clamp(NudgeGain(gain, envN), AUTO_GAIN_MIN, AUTO_GAIN_MAX)
    else gain
  }

  /** `punch = clamp01((env_n - slow_env_n) * PUNCH_BOOST)`: a unit value that
      is positive exactly when the fast loudness is above its baseline. */
  function Punch(envN: real, slowEnvN: real): (r: real)
    ensures 0.0 <= r <= 1.0
    ensures r > 0.0 <==> envN > slowEnvN
  {
    Clamp01((envN - slowEnvN) * PUNCH_BOOST)
  }

  lemma ScaledRmsNonNegative(rms01: real, gain: real)
    ensures 0.0 <= rms01 && 0.0 <= gain ==> 0.0 <= rms01 * MIC_GAIN * gain
  {
    if 0.0 <= rms01 && 0.0 <= gain {
      assert 0.0 <= rms01 * MIC_GAIN;
    }
  }

  /** `clamp01(e / ENV_MAX)`: an envelope as a unit value, full scale from
      `ENV_MAX` on, order-preserving. */
  function Normalize(e: real): (r: real)
    ensures 0.0 <= r <= 1.0
    ensures e >= ENV_MAX ==> r == 1.0
    ensures e <= 0.0 ==> r == 0.0
    ensures 0.0 <= e <= ENV_MAX ==> r * ENV_MAX == e
  {
    Clamp01(e / ENV_MAX)
  }

  /** One frame of the signal chain, given the block's normalised RMS, in
      the order of Final.py's loop: the RMS is scaled by the microphone gain
      and the current auto-gain, the fast envelope follows the scaled RMS,
      the auto-gain adapts to the new loudness, the slow baseline follows the
      fast envelope, and the punch compares the two normalised envelopes.
      The normalised envelopes and the punch are unit values, the gain stays
      in range, and a non-negative RMS keeps both envelopes non-negative. */
  function Update(s: SignalState, rms01: real): (f: Frame)
    ensures f.rms == rms01 * MIC_GAIN * s.autoGain
    ensures f.state.env == Follow(s.env, f.rms, ATTACK, RELEASE)
    ensures f.envN == Normalize(f.state.env)
    ensures f.state.autoGain == AdaptGain(s.autoGain, f.envN)
    ensures f.state.slowEnv == Follow(s.slowEnv, f.state.env, SLOW_ENV_ATTACK, SLOW_ENV_RELEASE)
    ensures f.slowEnvN == Normalize(f.state.slowEnv)
    ensures f.punch == Punch(f.envN, f.slowEnvN)
    ensures 0.0 <= f.envN <= 1.0
    ensures 0.0 <= f.slowEnvN <= 1.0
    ensures 0.0 <= f.punch <= 1.0
    ensures f.envN <= f.slowEnvN ==> f.punch == 0.0
    ensures AUTO_GAIN_MIN <= f.state.autoGain <= AUTO_GAIN_MAX
    ensures Sane(s) && 0.0 <= rms01 ==> Sane(f.state)
  {
    var rms := rms01 * MIC_GAIN * s.autoGain;
    ScaledRmsNonNegative(rms01, s.autoGain);
    var env := Follow(s.env, rms, ATTACK, RELEASE);
    var envN := Normalize(env);
    var gain := AdaptGain(s.autoGain, envN);
    var slowEnv := Follow(s.slowEnv, env, SLOW_ENV_ATTACK, SLOW_ENV_RELEASE);
    var slowEnvN := Normalize(slowEnv);
    Frame(SignalState(env, slowEnv, gain), rms, envN, slowEnvN, Punch(envN, slowEnvN))
  }

  /** The fast envelope tracks the scaled RMS: it never overshoots it, it
      rises on a louder block and does not rise on a quieter one. */
  lemma UpdateTracks(s: SignalState, rms01: real)
    ensures var f := Update(s, rms01);
      && (f.rms > s.env ==> s.env < f.state.env <= f.rms)
      && (f.rms <= s.env ==> f.rms <= f.state.env <= s.env)
      && (f.state.env > s.slowEnv ==> s.slowEnv < f.state.slowEnv <= f.state.env)
      && (f.state.env <= s.slowEnv ==> f.state.env <= f.state.slowEnv <= s.slowEnv)
  {
  }

  /** Silence stays silent: from a silent state, a zero-RMS block yields
      zero loudness and zero punch, and the envelopes stay at zero. */
  lemma SilenceStaysSilent(s: SignalState)
    requires s.env == 0.0 && s.slowEnv == 0.0
    ensures var f := Update(s, 0.0);
      f.envN == 0.0 && f.punch == 0.0 && f.state.env == 0.0 && f.state.slowEnv == 0.0
  {
  }

  /** Normalisation preserves order, so the punch compares the two envelopes
      themselves: a fast envelope at or below the baseline gives no punch. */
  lemma NormalizeMonotone(a: real, b: real)
    requires a <= b
    ensures Normalize(a) <= Normalize(b)
  {
  }
}

=== FILE: icon_weather.dfy ===
/**
  The display-formatting logic of the icon weather screen
  (Testing/IconWeather/code.py): the condition-code classifier, the text
  normalisation, the temperature label, the label autosizing, the icon
  scaling and placement arithmetic, and the defaulting and truncation that
  turn a decoded OpenWeatherMap reply into screen texts. The display and
  the network are not modelled; the screen size and the icon bitmap's size
  are inputs.
 */
module IconWeather {
  import opened Numeric
  import opened Wrappers
  import opened Strings

  const UNITS := "imperial"
  const MARGIN := 6
  const HEADER_H := 20

  const TORNADO := "tornado.bmp"
  const BOLT := "cloud.bolt.rain.fill.bmp"
  const DRIZZLE := "cloud.drizzle.fill.bmp"
  const HEAVY_RAIN := "cloud.heavyrain.fill.bmp"
  const CLOUD := "cloud.fill.bmp"
  const SNOW := "cloud.snow.fill.bmp"
  const FOG := "cloud.fog.fill.bmp"
  const SUN := "sun.max.fill.bmp"
  const MOON := "moon.stars.fill.bmp"

  // ---------------------------------------------------------------------
  // icon_for
  // ---------------------------------------------------------------------

  /** True when an icon tag such as "01d" is a daytime tag. */
  predicate IsDay(tag: string) {
    EndsWith(tag, "d")
  }

  /** `icon_for(code, tag)`: a total classifier. Each icon is chosen for
      exactly one band of codes; in the rain band only 500 and 501 fall
      back to the plain cloud, because the heavy-rain test is effectively
      `code >= 502`; and every code outside the named bands is a cloud. */
  function IconFor(code: int, tag: string): (icon: string)
    ensures icon == TORNADO <==> code == 781
    ensures icon == BOLT <==> 200 <= code <= 232
    ensures icon == DRIZZLE <==> 300 <= code <= 321
    ensures icon == HEAVY_RAIN <==> 502 <= code <= 531
    ensures icon == SNOW <==> 600 <= code <= 622
    ensures icon == FOG <==> 700 <= code <= 771
    ensures icon == SUN <==> code == 800 && IsDay(tag)
    ensures icon == MOON <==> code == 800 && !IsDay(tag)
    ensures icon == CLOUD <==>
      !(code == 781 || 200 <= code <= 232 || 300 <= code <= 321 || 502 <= code <= 531
        || 600 <= code <= 622 || 700 <= code <= 771 || code == 800)
  {
    if code == 781 then TORNADO
    else if 200 <= code <= 232 then BOLT
    else if 300 <= code <= 321 then DRIZZLE
    else if 500 <= code <= 531 then
      (if code >= 520 || code >= 502 then HEAVY_RAIN else CLOUD)
    else if 600 <= code <= 622 then SNOW
    else if 700 <= code <= 771 then FOG
    else if code == 800 then (if IsDay(tag) then SUN else MOON)
    else if 801 <= code <= 804 then CLOUD
    else CLOUD
  }

  // ---------------------------------------------------------------------
  // t_ascii
  // ---------------------------------------------------------------------

  /** The unit letter of a temperature label. */
  function UnitLetter(units: string): char {
    if units == "metric" then 'C' else 'F'
  }

  /** `t_ascii(t)`: "--" for a missing temperature, otherwise the rounded
      temperature in decimal followed by the unit letter ('C' only for
      metric units). */
  function TAscii(t: Option<real>, units: string): (s: string)
    ensures t.None? ==> s == "--"
    ensures t.Some? ==>
      && |s| >= 2
      && s[|s| - 1] == (if units == "metric" then 'C' else 'F')
      && IsDecimal(s[..|s| - 1])
      && ParseDecimal(s[..|s| - 1]) == RoundHalfEven(t.value)
  {
    match t
    case None => "--"
    case Some(v) =>
      var d := IntToDecimal(RoundHalfEven(v));
      var s := d + [UnitLetter(units)];
      assert s[..|s| - 1] == d;
      s
  }

  // ---------------------------------------------------------------------
  // nice_case
  // ---------------------------------------------------------------------

  /** Free of the separators `nice_case` turns into spaces. */
  predicate Undashed(s: string) {
    '_' !in s && '-' !in s
  }

  predicate AllUndashed(ws: seq<string>) {
    forall k :: 0 <= k < |ws| ==> Undashed(ws[k])
  }

  /** `s.replace("_", " ").replace("-", " ")`: same length, no separators
      left, every other character kept in place; the identity on a string
      that has none. */
  function DashesToSpaces(s: string): (r: string)
    ensures |r| == |s|
    ensures Undashed(r)
    ensures forall i :: 0 <= i < |s| ==> r[i] == (if s[i] == '_' || s[i] == '-' then ' ' else s[i])
    ensures Undashed(s) ==> r == s
  {
    seq(|s|, i requires 0 <= i < |s| => if s[i] == '_' || s[i] == '-' then ' ' else s[i])
  }

  /** `p[:1].upper() + p[1:]`: the first character upper-cased, the rest
      kept; a word stays a word, and capitalising twice changes nothing. */
  function Capitalize(w: string): (r: string)
    ensures |r| == |w|
    ensures |w| > 0 ==> r[0] == UpperAscii(w[0]) && r[1..] == w[1..]
    ensures IsWord(w) ==> IsWord(r)
    ensures Undashed(w) ==> Undashed(r)
  {
    if |w| == 0 then w
    else
      var r := [UpperAscii(w[0])] + w[1..];
      assert forall i :: 1 <= i < |w| ==> r[i] == w[i];
      r
  }

  lemma CapitalizeIdempotent(w: string)
    ensures Capitalize(Capitalize(w)) == Capitalize(w)
  {
    if |w| > 0 {
      assert UpperAscii(UpperAscii(w[0])) == UpperAscii(w[0]);
    }
  }

  function CapitalizeAll(ws: seq<string>): (r: seq<string>)
    ensures |r| == |ws|
    ensures forall k :: 0 <= k < |ws| ==> r[k] == Capitalize(ws[k])
    ensures AllWords(ws) ==> AllWords(r)
    ensures AllUndashed(ws) ==> AllUndashed(r)
  {
    seq(|ws|, k requires 0 <= k < |ws| => Capitalize(ws[k]))
  }

  /** The words of a string without separators have none either. */
  lemma SplitUndashed(s: string)
    requires Undashed(s)
    ensures AllUndashed(Split(s))
  {
    var ws := Split(s);
    forall k | 0 <= k < |ws|
      ensures Undashed(ws[k])
    {
      assert CharsWithin(ws[k], s);
    }
  }

  /** Joining words without separators adds none. */
  lemma JoinUndashed(ws: seq<string>)
    requires AllWords(ws) && AllUndashed(ws)
    ensures Undashed(Join(ws))
  {
    JoinShape(ws);
  }

  /** `nice_case(s)`: the words of `s` (split at whitespace, `_` and `-`),
      each with its first letter upper-cased, joined by single spaces. The
      result has no `_` or `-` and no leading, trailing or repeated
      whitespace, and splitting it gives back exactly the capitalised words. */
  function NiceCase(s: string): (r: string)
    ensures s == "" ==> r == ""
    ensures Undashed(r)
    ensures SingleSpaced(r) && Trimmed(r)
    ensures Split(r) == CapitalizeAll(Split(DashesToSpaces(s)))
  {
    if s == "" then ""
    else
      var words := Split(DashesToSpaces(s));
      var caps := CapitalizeAll(words);
      SplitUndashed(DashesToSpaces(s));
      JoinShape(caps);
      JoinUndashed(caps);
      SplitJoin(caps);
      Join(caps)
  }

  /** Normalising twice is normalising once. */
  lemma NiceCaseIdempotent(s: string)
    ensures NiceCase(NiceCase(s)) == NiceCase(s)
  {
    var r := NiceCase(s);
    if r != "" {
      var caps := CapitalizeAll(Split(DashesToSpaces(s)));
      assert r == Join(caps);
      assert Split(DashesToSpaces(r)) == caps;
      forall k | 0 <= k < |caps|
        ensures Capitalize(caps[k]) == caps[k]
      {
        CapitalizeIdempotent(Split(DashesToSpaces(s))[k]);
      }
      assert CapitalizeAll(caps) == caps;
    }
  }

  // ---------------------------------------------------------------------
  // autosize_temp
  // ---------------------------------------------------------------------

  /** The temperature label: its text, its integer scale and its anchor. */
  datatype TempLabel = TempLabel(text: string, scale: int, anchorX: int, anchorY: int)

  const CHAR_W := 6

  /** The width of the right-hand column: never below 30 pixels. */
  function TempAvail(w: int): (avail: int)
    ensures avail >= 30
    ensures avail >= (w - MARGIN) - Trunc(w as real * 0.52)
  {
    var rightColLeft := Trunc(w as real * 0.52);
    if 30 >= (w - MARGIN) - rightColLeft then 30 else (w - MARGIN) - rightColLeft
  }

  /** The text measured for autosizing: an empty label is measured as "88F". */
  function MeasuredText(text: string): (t: string)
    ensures |t| > 0
    ensures text != "" ==> t == text
  {
    if text != "" then text else "88F"
  }

  /** A scale at which the measured text fits the column. */
  predicate FitsAt(w: int, text: string, s: int) {
    |MeasuredText(text)| * CHAR_W * s <= TempAvail(w)
  }

  /** `autosize_temp()`: the label takes the largest scale among 4, 3, 2, 1
      at which its text fits, and is re-anchored; if not even scale 1 fits
      it is left exactly as it was. The text never changes. */
  function AutosizeTemp(w: int, lbl: TempLabel): (r: TempLabel)
    ensures r.text == lbl.text
    ensures FitsAt(w, lbl.text, 1) ==>
      && 1 <= r.scale <= 4
      && FitsAt(w, lbl.text, r.scale)
      && (forall s :: r.scale < s <= 4 ==> !FitsAt(w, lbl.text, s))
      && r.anchorX == w - MARGIN && r.anchorY == HEADER_H + MARGIN
    ensures !FitsAt(w, lbl.text, 1) ==> r == lbl
  {
    TryScales(w, lbl, 4)
  }

  /** `for s in (top, ..., 1)`: the first scale that fits, from `top` down. */
  function TryScales(w: int, lbl: TempLabel, top: int): (r: TempLabel)
    requires 0 <= top <= 4
    ensures r.text == lbl.text
    ensures (exists s :: 1 <= s <= top && FitsAt(w, lbl.text, s)) ==>
      && 1 <= r.scale <= top
      && FitsAt(w, lbl.text, r.scale)
      && (forall s :: r.scale < s <= top ==> !FitsAt(w, lbl.text, s))
      && r.anchorX == w - MARGIN && r.anchorY == HEADER_H + MARGIN
    ensures (forall s :: 1 <= s <= top ==> !FitsAt(w, lbl.text, s)) ==> r == lbl
    decreases top
  {
    if top == 0 then lbl
    else if FitsAt(w, lbl.text, top) then TempLabel(lbl.text, top, w - MARGIN, HEADER_H + MARGIN)
    else TryScales(w, lbl, top - 1)
  }

  /** Fitting is downward closed: a text that fits at some scale fits at
      every smaller positive scale. */
  lemma FitsDownward(w: int, text: string, s: int, s': int)
    requires 1 <= s' <= s && FitsAt(w, text, s)
    ensures FitsAt(w, text, s')
  {
    var k := |MeasuredText(text)| * CHAR_W;
    assert k * s' <= k * s;
  }

  // ---------------------------------------------------------------------
  // load_scaled_icon
  // ---------------------------------------------------------------------

  /** Where and how large the icon is drawn. */
  datatype Placement = Placement(x: int, y: int, scale: int)

  /** The icon area's top edge. */
  const ICON_TOP := HEADER_H + MARGIN

  /** The icon area's height: from below the header to above the condition
      label (anchored at `h - MARGIN`), never below 8. */
  function IconAvailH(h: int): (a: int)
    ensures a >= 8
  {
    var bottom := Trunc((h - MARGIN) as real) - MARGIN;
    if 8 >= bottom - ICON_TOP then 8 else bottom - ICON_TOP
  }

  /** The icon area's width: 45% of the screen less the margins, never below 8. */
  function IconAvailW(w: int): (a: int)
    ensures a >= 8
  {
    var span := Trunc(w as real * 0.45) - 2 * MARGIN;
    if 8 >= span then 8 else span
  }

  /** A bitmap of `iw` by `ih` pixels drawn at scale `s` fits an area of
      `aw` by `ah` pixels. */
  predicate BoxFits(aw: int, ah: int, iw: int, ih: int, s: int) {
    iw * s <= aw && ih * s <= ah
  }

  /** `min(avail_w // iw, avail_h // ih)` is the largest scale that fits. */
  lemma BoxFitsQuotients(aw: int, ah: int, iw: int, ih: int)
    requires iw >= 1 && ih >= 1
    ensures forall s :: BoxFits(aw, ah, iw, ih, s) <==> s <= aw / iw && s <= ah / ih
  {
    forall s
      ensures BoxFits(aw, ah, iw, ih, s) <==> s <= aw / iw && s <= ah / ih
    {
      QuotientFit(aw, iw, s);
      QuotientFit(ah, ih, s);
    }
  }

  /** With Python's floor division, `i * s <= a` exactly when `s <= a // i`. */
  lemma QuotientFit(a: int, i: int, s: int)
    requires i >= 1
    ensures i * s <= a <==> s <= a / i
  {
    var q := a / i;
    assert a == i * q + a % i && 0 <= a % i < i;
    if s <= q {
      assert i * s <= i * q;
    } else {
      assert i * s >= i * (q + 1) == i * q + i;
    }
  }

  /** The icon's integer scale `max(1, min(avail_w // iw, avail_h // ih, 4))`:
      the largest scale from 1 to 4 at which the icon fits its area, and 1
      when not even scale 1 fits. */
  function IconScale(aw: int, ah: int, iw: int, ih: int): (sx: int)
    requires iw >= 1 && ih >= 1
    ensures 1 <= sx <= 4
    ensures BoxFits(aw, ah, iw, ih, 1) ==> BoxFits(aw, ah, iw, ih, sx)
    ensures forall s :: sx < s <= 4 ==> !BoxFits(aw, ah, iw, ih, s)
    ensures !BoxFits(aw, ah, iw, ih, 1) ==> sx == 1
  {
    BoxFitsQuotients(aw, ah, iw, ih);
    var fit := if aw / iw <= ah / ih then aw / iw else ah / ih;
    var sx := if 1 >= fit then 1 else fit;
    if 1 >= (if sx <= 4 then sx else 4) then 1 else (if sx <= 4 then sx else 4)
  }

  /** `(a - b) // 2` for the leading gap: the two gaps it leaves around a box
      differ by at most one pixel, the trailing gap being the larger. */
  lemma HalfGap(a: int, b: int)
    ensures 0 <= (a - b - (a - b) / 2) - (a - b) / 2 <= 1
  {
  }

  /** The scale and placement arithmetic of `load_scaled_icon(name)`, given
      the screen size and the bitmap size (`None` when the file did not
      load). An icon without pixels is not drawn. A drawn icon has the scale
      of `IconScale` and is centred in its area in both directions: the gap
      after it is the gap before it or one pixel more. When scale 1 fits,
      its scaled box lies inside the area. */
  function LoadScaledIcon(w: int, h: int, bmp: Option<(int, int)>): (r: Option<Placement>)
    ensures bmp.None? ==> r.None?
    ensures bmp.Some? && (bmp.value.0 < 1 || bmp.value.1 < 1) ==> r.None?
    ensures bmp.Some? && bmp.value.0 >= 1 && bmp.value.1 >= 1 ==>
      && r.Some?
      && r.value.scale == IconScale(IconAvailW(w), IconAvailH(h), bmp.value.0, bmp.value.1)
    ensures r.Some? ==>
      var boxW := bmp.value.0 * r.value.scale;
      var boxH := bmp.value.1 * r.value.scale;
      && 0 <= (MARGIN + IconAvailW(w) - (r.value.x + boxW)) - (r.value.x - MARGIN) <= 1
      && 0 <= (ICON_TOP + IconAvailH(h) - (r.value.y + boxH)) - (r.value.y - ICON_TOP) <= 1
    ensures r.Some? && BoxFits(IconAvailW(w), IconAvailH(h), bmp.value.0, bmp.value.1, 1) ==>
      && r.value.x >= MARGIN
      && r.value.y >= ICON_TOP
      && r.value.x + bmp.value.0 * r.value.scale <= MARGIN + IconAvailW(w)
      && r.value.y + bmp.value.1 * r.value.scale <= ICON_TOP + IconAvailH(h)
  {
    match bmp
    case None => None
    case Some((iw, ih)) =>
      if iw < 1 || ih < 1 then None
      else
        var aw := IconAvailW(w);
        var ah := IconAvailH(h);
        var sx := IconScale(aw, ah, iw, ih);
        var boxW := iw * sx;
        var boxH := ih * sx;
        HalfGap(aw, boxW);
        HalfGap(ah, boxH);
        Some(Placement(MARGIN + (aw - boxW) / 2, ICON_TOP + (ah - boxH) / 2, sx))
  }

  // ---------------------------------------------------------------------
  // update_ui
  // ---------------------------------------------------------------------

  /** One entry of the reply's "weather" list; missing keys are `None`. */
  datatype Condition = Condition(id: Option<int>, description: Option<string>, icon: Option<string>)

  /** The parts of a decoded reply that the screen reads. `name` is the
      "name" key; `temp` and `feelsLike` are the "main" object's keys. */
  datatype Reply = Reply(name: Option<string>, temp: Option<real>, feelsLike: Option<real>, weather: seq<Condition>)

  /** The texts on screen and the icon file chosen. */
  datatype Screen = Screen(title: string, temp: TempLabel, cond: string, updated: string, icon: string)

  const COND_MAX := 40

  /** `(w0.get("description") or "clear")`: a missing or empty description
      reads as "clear". */
  function Description(c: Condition): (d: string)
    ensures d != ""
    ensures c.description.Some? && c.description.value != "" ==> d == c.description.value
    ensures c.description.None? || c.description.value == "" ==> d == "clear"
  {
    match c.description
    case Some(x) => if x == "" then "clear" else x
    case None => "clear"
  }

  /** The condition text before truncation: the description, then the
      feels-like temperature when the reply has one. */
  function CondText(desc: string, feels: Option<real>, units: string): (c: string)
    ensures |desc| <= |c| && c[..|desc|] == desc
    ensures feels.None? <==> c == desc
  {
    desc + (if feels.None? then "" else " · Feels " + TAscii(feels, units))
  }

  /** `s[:n]` for `n >= 0`: the longest prefix of at most `n` characters. */
  function Take(s: string, n: nat): (r: string)
    ensures |r| <= n && |r| <= |s| && r == s[..|r|]
    ensures |s| <= n ==> r == s
    ensures |s| > n ==> |r| == n
  {
    if |s| <= n then s else s[..n]
  }

  /** `update_ui(data)`: an empty weather list means code 800, "Clear" and
      tag "01d", so the daytime sun; otherwise the first entry's fields, with
      the same defaults for missing keys and "clear" for a missing or empty
      description. The condition label is the first 40 characters of the
      condition text; the temperature label is autosized. */
  function UpdateUi(data: Reply, w: int, temp: TempLabel): (r: Screen)
    ensures data.weather == [] ==> r.icon == SUN
    ensures data.weather == [] ==> r.cond == Take(CondText("Clear", data.feelsLike, UNITS), COND_MAX)
    ensures data.weather != [] ==>
      r.cond == Take(CondText(NiceCase(Description(data.weather[0])), data.feelsLike, UNITS), COND_MAX)
    ensures data.weather != [] && data.weather[0].id.None? && data.weather[0].icon.None? ==> r.icon == SUN
    ensures data.weather != [] && data.weather[0].id.None? ==>
      r.icon == IconFor(800, data.weather[0].icon.GetOr("01d"))
    ensures data.weather != [] && data.weather[0].id.Some? ==>
      r.icon == IconFor(data.weather[0].id.value, data.weather[0].icon.GetOr("01d"))
    ensures |r.cond| <= COND_MAX
    ensures r.temp == AutosizeTemp(w, temp.(text := TAscii(data.temp, UNITS)))
    ensures r.title == data.name.GetOr("Weather")
    ensures r.updated == "Updated"
  {
    var first := if |data.weather| > 0 then data.weather[0] else Condition(None, None, None);
    var code := first.id.GetOr(800);
    var desc := if |data.weather| > 0 then NiceCase(Description(first)) else "Clear";
    var tag := first.icon.GetOr("01d");
    assert IsDay("01d");
    Screen(data.name.GetOr("Weather"), AutosizeTemp(w, temp.(text := TAscii(data.temp, UNITS))),
           Take(CondText(desc, data.feelsLike, UNITS), COND_MAX), "Updated", IconFor(code, tag))
  }
}

=== FILE: modes.dfy ===
/**
  The button-driven mode state machine of Final.py: eight visual modes,
  advanced by one (wrapping) on each debounced falling edge, with both
  strips blanked and committed on every transition.
 */
module Modes {
  import opened Topology

  const MODE_OFF := 0
  const MODE_STATIC := 1
  const MODE_RAINBOW_BREATHE := 2
  const MODE_SOUND_BAR := 3
  const MODE_SOUND_COLOR := 4
  const MODE_SOUND_SPARKLE := 5
  const MODE_RAINBOW_FLOW := 6
  const MODE_SOUND_PULSE := 7

  const MODE_NAMES: seq<string> := [
    "OFF", "STATIC", "RAINBOW_BREATHE", "SOUND_BAR",
    "SOUND_COLOR", "SOUND_SPARKLE", "RAINBOW_FLOW", "SOUND_PULSE"
  ]

  /** `len(MODE_NAMES)`, the modulus of the cycling. */
  const MODE_COUNT := |MODE_NAMES|

  /** The mode the driver boots in. */
  const START_MODE := MODE_SOUND_BAR

  predicate ValidMode(m: int) { 0 <= m < MODE_COUNT }

  /** `(mode + 1) % len(MODE_NAMES)`: always a valid mode; the next one in
      order, and OFF after the last. */
  function NextMode(m: int): (r: int)
    ensures ValidMode(r)
    ensures 0 <= m < MODE_COUNT - 1 ==> r == m + 1
    ensures m == MODE_COUNT - 1 ==> r == MODE_OFF
  {
    (m + 1) % MODE_COUNT
  }

  /** The mode after `k` presses. */
  function Presses(m: int, k: nat): int
    decreases k
  {
    if k == 0 then m else NextMode(Presses(m, k - 1))
  }

  /** `k` presses from a valid mode advance it by `k`, modulo the count. */
  lemma {:induction false} PressesAdvance(m: int, k: nat)
    requires ValidMode(m)
    ensures Presses(m, k) == (m + k) % MODE_COUNT
    decreases k
  {
    if k > 0 {
      PressesAdvance(m, k - 1);
      assert MODE_COUNT == 8;
      var p := Presses(m, k - 1);
      assert p == (m + k - 1) % 8;
      assert Presses(m, k) == (p + 1) % 8;
      ModSucc(m + k - 1);
    }
  }

  lemma ModSucc(x: int)
    ensures (x % 8 + 1) % 8 == (x + 1) % 8
  {
  }

  /** As many presses as there are modes bring back the starting mode. */
  lemma FullCycle(m: int)
    requires ValidMode(m)
    ensures Presses(m, MODE_COUNT) == m
    ensures forall k :: 0 < k < MODE_COUNT ==> Presses(m, k) != m
  {
    PressesAdvance(m, MODE_COUNT);
    forall k | 0 < k < MODE_COUNT
      ensures Presses(m, k) != m
    {
      PressesAdvance(m, k);
    }
  }

  /** The outcome of the button check at the top of a frame. */
  datatype Transition = Transition(mode: int, strips: Strips, blanked: bool)

  /** `if button.fell: mode = ...; clear_all()`: on a fall the mode advances
      and every pixel of both strips is blanked (and committed); otherwise
      nothing changes. */
  function OnButton(mode: int, strips: Strips, n: nat, fell: bool): (t: Transition)
    requires Fits(strips, n)
    ensures Fits(t.strips, n)
    ensures t.blanked == fell
    ensures fell ==> t.mode == NextMode(mode)
    ensures fell ==> forall sl :: ValidSlot(n, sl) ==> Get(t.strips, n, sl) == Black
    ensures !fell ==> t.mode == mode && t.strips == strips
  {
    if fell then Transition(NextMode(mode), ClearU(n), true)
    else Transition(mode, strips, false)
  }
}

=== FILE: numeric.dfy ===
/**
  Small numeric helpers shared by the LED driver and the weather screens.
  Python floats are idealised as Dafny `real`; the Python operators whose
  semantics differ from Dafny's are written out here: `int(x)` truncates
  toward zero, `round(x)` rounds half to even, and `x % 1.0` is floor-based.
 */
module Numeric {

  /** `clamp(x, lo, hi)` of Final.py: the lower bound is compared first. */
  function Clamp(x: real, lo: real, hi: real): (r: real)
    ensures lo <= hi ==> lo <= r <= hi
    ensures lo <= x <= hi ==> r == x
    ensures r == x || r == lo || r == hi
    ensures x < lo ==> r == lo
  {
    if x < lo then lo
    else if x > hi then hi
    else x
  }

  /** `clamp01(x)` of Final.py: `clamp` with the unit interval. */
  function Clamp01(x: real): (r: real)
    ensures 0.0 <= r <= 1.0
    ensures 0.0 <= x <= 1.0 ==> r == x
    ensures r == Clamp(x, 0.0, 1.0)
  {
    if x < 0.0 then 0.0
    else if x > 1.0 then 1.0
    else x
  }

  /** Clamping twice is clamping once. */
  lemma ClampIdempotent(x: real, lo: real, hi: real)
    requires lo <= hi
    ensures Clamp(Clamp(x, lo, hi), lo, hi) == Clamp(x, lo, hi)
  {
  }

  /** Clamping preserves the order of its argument. */
  lemma ClampMonotone(x: real, y: real, lo: real, hi: real)
    requires lo <= hi && x <= y
    ensures Clamp(x, lo, hi) <= Clamp(y, lo, hi)
  {
  }

  /** `x + gap * rate`: a move of the fraction `rate` of the way from `x`
      across `gap`. For a rate in [0,1] the result lies between `x` and
      `x + gap`, strictly past `x` for a positive rate and gap; rates 0 and
      1 stop at the two ends; what is left of the gap is `gap - gap * rate`,
      that is `(1 - rate) * gap`. */
  function Advance(x: real, gap: real, rate: real): (r: real)
    ensures 0.0 <= rate <= 1.0 && gap >= 0.0 ==> x <= r <= x + gap
    ensures 0.0 <= rate <= 1.0 && gap <= 0.0 ==> x + gap <= r <= x
    ensures 0.0 < rate && 0.0 < gap ==> x < r
    ensures rate == 0.0 ==> r == x
    ensures rate == 1.0 ==> r == x + gap
    ensures (x + gap) - r == gap - gap * rate
  {
    assert 0.0 <= rate <= 1.0 && gap >= 0.0 ==> 0.0 <= gap * rate <= gap * 1.0;
    assert 0.0 <= rate <= 1.0 && gap <= 0.0 ==> gap * 1.0 <= gap * rate <= 0.0;
    x + gap * rate
  }

  /** `lerp(a, b, t)`: for `t` in [0,1] the result lies between `a` and `b`,
      and the end points are reached at `t = 0` and `t = 1`. */
  function Lerp(a: real, b: real, t: real): (r: real)
    ensures 0.0 <= t <= 1.0 && a <= b ==> a <= r <= b
    ensures 0.0 <= t <= 1.0 && b <= a ==> b <= r <= a
    ensures t == 0.0 ==> r == a
    ensures t == 1.0 ==> r == b
  {
    Advance(a, b - a, t)
  }

  /** Scaling by a factor in [0,1] keeps a value between 0 and itself. */
  lemma MulUnitBounds(d: real, t: real)
    ensures 0.0 <= t <= 1.0 && d >= 0.0 ==> 0.0 <= d * t <= d
    ensures 0.0 <= t <= 1.0 && d <= 0.0 ==> d <= d * t <= 0.0
  {
    if 0.0 <= t <= 1.0 {
      if d >= 0.0 {
        assert d * t <= d * 1.0;
      } else {
        assert d * t >= d * 1.0;
      }
    }
  }

  /** Python's `int(x)` on a float: truncation toward zero. */
  function Trunc(x: real): (r: int)
    ensures 0.0 <= x ==> 0 <= r && r as real <= x < r as real + 1.0
    ensures x <= 0.0 ==> r <= 0 && r as real - 1.0 < x <= r as real
  {
    if x >= 0.0 then x.Floor else -((-x).Floor)
  }

  /** On non-negative inputs truncation is monotone. */
  lemma TruncMonotone(x: real, y: real)
    requires 0.0 <= x <= y
    ensures Trunc(x) <= Trunc(y)
  {
  }

  /** Python's `x % 1.0`: the fractional part, always in [0,1), differing
      from `x` by a whole number. */
  function Frac(x: real): (r: real)
    ensures 0.0 <= r < 1.0
    ensures (x - r).Floor as real == x - r
    ensures 0.0 <= x < 1.0 ==> r == x
  {
    x - x.Floor as real
  }

  /** Python 3's `round(x)` on a float: the nearest integer, with ties
      going to the even neighbour. */
  function RoundHalfEven(x: real): (r: int)
    ensures -0.5 <= x - r as real <= 0.5
    ensures (x - r as real == 0.5 || r as real - x == 0.5) ==> r % 2 == 0
  {
    var f := x.Floor;
    var d := x - f as real;
    if d < 0.5 then f
    else if d > 0.5 then f + 1
    else if f % 2 == 0 then f
    else f + 1
  }

  /** The two properties in the contract of `RoundHalfEven` single out one
      integer: any `n` that is nearest to `x` and even on a tie is the result. */
  lemma RoundHalfEvenUnique(x: real, n: int)
    requires -0.5 <= x - n as real <= 0.5
    requires (x - n as real == 0.5 || n as real - x == 0.5) ==> n % 2 == 0
    ensures n == RoundHalfEven(x)
  {
  }
}

=== FILE: render.dfy ===
/**
  The renderers of Final.py, one per mode, as pure functions from the frame's
  signals to pixel buffers. The two colour conversions whose arithmetic is
  floating-point power and sector maths (`hsv_to_rgb` and `rainbow_soft_hot`)
  are parameters; `math.sin(now * 2.0)` is an input in [-1,1]; the random
  spark positions are a caller-supplied sequence of indices.
 */
module Render {
  import opened Numeric
  import opened Wrappers
  import opened Topology

  /** `hsv_to_rgb(h, s, v)`. */
  type Hsv = (real, real, real) -> Rgb

  /** `rainbow_soft_hot(h, v)`. */
  type SoftHot = (real, real) -> Rgb

  const PASTEL_RED := Rgb(255, 90, 110)
  const BAR_PEAK_FALL := 0.015
  const BAR_COOL := Rgb(40, 160, 255)
  const BAR_WARM := Rgb(255, 110, 30)
  const PULSE_WARM_WHITE := Rgb(255, 220, 180)

  /** The largest spark count the sparkle formula reaches on unit inputs. */
  const MAX_SPARKS := 14

  // ---------------------------------------------------------------------
  // Colour arithmetic
  // ---------------------------------------------------------------------

  predicate Within(x: int, a: int, b: int) {
    (a <= b && a <= x <= b) || (b <= a && b <= x <= a)
  }

  /** `int(lerp(a, b, t))` on one channel: between the end points. */
  function LerpChannel(a: int, b: int, t: real): (r: int)
    ensures 0 <= a && 0 <= b && 0.0 <= t <= 1.0 ==> Within(r, a, b)
  {
    Trunc(Lerp(a as real, b as real, t))
  }

  /** `lerp_color(c1, c2, t)`: each channel lies between the two colours'. */
  function LerpColor(c1: Rgb, c2: Rgb, t: real): (r: Rgb)
    ensures InByteRange(c1) && InByteRange(c2) && 0.0 <= t <= 1.0 ==>
      && Within(r.r, c1.r, c2.r) && Within(r.g, c1.g, c2.g) && Within(r.b, c1.b, c2.b)
      && InByteRange(r)
  {
    Rgb(LerpChannel(c1.r, c2.r, t), LerpChannel(c1.g, c2.g, t), LerpChannel(c1.b, c2.b, t))
  }

  /** `int(x * k)` on one channel: a unit factor never brightens. */
  function ScaleChannel(x: int, k: real): (r: int)
    ensures 0 <= x && 0.0 <= k <= 1.0 ==> 0 <= r <= x
  {
    MulUnitBounds(x as real, k);
    Trunc(x as real * k)
  }

  /** `(int(c[0] * k), int(c[1] * k), int(c[2] * k))`. */
  function Scale(c: Rgb, k: real): (r: Rgb)
    ensures InByteRange(c) && 0.0 <= k <= 1.0 ==> InByteRange(r) && r.r <= c.r && r.g <= c.g && r.b <= c.b
  {
    Rgb(ScaleChannel(c.r, k), ScaleChannel(c.g, k), ScaleChannel(c.b, k))
  }

  // ---------------------------------------------------------------------
  // SOUND_BAR
  // ---------------------------------------------------------------------

  /** A scaled level rounded half up and capped at `n`. */
  function CapLevel(x: real, n: nat): (level: int)
    ensures level <= n
    ensures 0.0 <= x ==> 0 <= level
    ensures 0.0 <= x <= n as real ==> level as real <= x + 0.5 < level as real + 1.0
  {
    var l := Trunc(x + 0.5);
    if l > n then n else l
  }

  /** The number of lit pixels per side: `env_n * n` rounded half up, capped
      at `n`. */
  function BarLevel(envN: real, n: nat): (level: int)
    ensures level <= n
    ensures 0.0 <= envN ==> 0 <= level
    ensures 0.0 <= envN <= 1.0 ==> level as real <= envN * n as real + 0.5 < level as real + 1.0
  {
    MulUnitBounds(n as real, envN);
    CapLevel(envN * n as real, n)
  }

  lemma MulMonotone(a: real, b: real, c: real)
    requires 0.0 <= a <= b && 0.0 <= c
    ensures 0.0 <= a * c <= b * c
  {
    assert b * c - a * c == (b - a) * c;
  }

  lemma CapLevelMonotone(x: real, y: real, n: nat)
    requires 0.0 <= x <= y
    ensures CapLevel(x, n) <= CapLevel(y, n)
  {
    TruncMonotone(x + 0.5, y + 0.5);
  }

  /** A louder frame never lights fewer pixels. */
  lemma BarLevelMonotone(a: real, b: real, n: nat)
    requires 0.0 <= a <= b
    ensures BarLevel(a, n) <= BarLevel(b, n)
  {
    MulMonotone(a, b, n as real);
    CapLevelMonotone(a * n as real, b * n as real, n);
    BarLevelIsCap(a, n);
    BarLevelIsCap(b, n);
  }

  lemma BarLevelIsCap(envN: real, n: nat)
    ensures BarLevel(envN, n) == CapLevel(envN * n as real, n)
  {
  }

  /** The peak marker: it jumps to a louder frame, otherwise it falls by at
      most `BAR_PEAK_FALL` and never below zero; unit inputs give a unit value. */
  function NextPeak(peak: real, envN: real): (r: real)
    ensures envN > peak ==> r == envN
    ensures envN <= peak ==> r >= peak - BAR_PEAK_FALL
    ensures envN <= peak && 0.0 <= peak ==> r <= peak
    ensures envN <= peak ==> r >= 0.0 && (r == 0.0 || r == peak - BAR_PEAK_FALL)
    ensures 0.0 <= envN ==> 0.0 <= r
    ensures envN <= 1.0 && peak <= 1.0 ==> r <= 1.0
  {
    if envN > peak then envN
    else if 0.0 >= peak - BAR_PEAK_FALL then 0.0
    else peak - BAR_PEAK_FALL
  }

  /** Where the peak marker is drawn, if anywhere: always a valid position,
      and always drawn for a non-negative peak. Below the last pixel it is
      `peak * n` rounded with a 0.2 offset; the last pixel is chosen only
      when `peak * n + 0.2` reaches it. */
  function PeakIndex(peak: real, n: nat): (r: Option<int>)
    requires n >= 1
    ensures r.Some? ==> 0 <= r.value < n
    ensures 0.0 <= peak ==> r.Some?
    ensures 0.0 <= peak && r.Some? && r.value < n - 1 ==>
      r.value as real <= peak * n as real + 0.2 < r.value as real + 1.0
    ensures 0.0 <= peak && r.Some? && r.value == n - 1 ==> (n - 1) as real <= peak * n as real + 0.2
  {
    var idx := Trunc(peak * n as real + 0.2);
    var idx' := if idx >= n then n - 1 else idx;
    assert 0.0 <= peak ==> 0.0 <= peak * n as real by {
      if 0.0 <= peak {
        MulMonotone(0.0, peak, n as real);
      }
    }
    if idx' >= 0 then Some(idx') else None
  }

  /** The marker is white above a small threshold, black otherwise. */
  function PeakColor(peak: real): Rgb {
    if peak > 0.05 then White else Black
  }

  /** The colour of lit pixel `i`: a cool-to-warm gradient down the strip,
      warmed by the punch, dimmed by the loudness. On unit loudness it is a
      valid colour and never black. */
  function BarPixel(i: int, n: nat, envN: real, punch: real): (c: Rgb)
    ensures 0.0 <= envN <= 1.0 ==> InByteRange(c) && c != Black
  {
    var posT := i as real / (if n > 1 then n - 1 else 1) as real;
    var warmMix := Clamp01(posT * 0.75 + punch * 0.5);
    var base := LerpColor(BAR_COOL, BAR_WARM, warmMix);
    var brightness := 0.35 + 0.65 * envN;
    var c := Scale(base, brightness);
    MulUnitBounds(0.65, envN);
    GreenSurvives(base.g, brightness);
    c
  }

  /** A green channel of at least 110 keeps a non-zero value under a
      brightness of at least 0.35. */
  lemma GreenSurvives(g: int, k: real)
    ensures 110 <= g && 0.35 <= k ==> ScaleChannel(g, k) > 0
  {
    if 110 <= g && 0.35 <= k {
      var x := g as real;
      MulMonotone(110.0, x, k);
      assert x * k >= 38.5;
    }
  }

  /** What `MODE_SOUND_BAR` draws. */
  datatype BarFrame = BarFrame(strips: Strips, peak: real)

  /** The lighting rule of the bar column: a pixel is lit exactly when it is
      below the level, except at the marker's slot, which is lit exactly
      when the marker is over its threshold. */
  predicate BarLit(column: seq<Rgb>, n: nat, envN: real, peak: real)
    requires n >= 1 && |column| == n
  {
    forall i :: 0 <= i < n ==>
      (column[i] != Black <==> if PeakIndex(peak, n) == Some(i) then peak > 0.05 else i < BarLevel(envN, n))
  }

  /** `MODE_SOUND_BAR`: both strips show the same column. Pixels below the
      level show their gradient colour and the rest are black, except the
      peak marker's slot, which shows `PeakColor`; with unit loudness a pixel
      is lit exactly when it is below the level, except at the marker, which
      is lit exactly when the peak is over the threshold. */
  function RenderBar(n: nat, envN: real, punch: real, peak: real): (r: BarFrame)
    requires n >= 1
    ensures Fits(r.strips, n)
    ensures r.strips.left == r.strips.right
    ensures r.peak == NextPeak(peak, envN)
    ensures 0.0 <= envN <= 1.0 ==>
      && (forall i :: 0 <= i < n ==> InByteRange(r.strips.left[i]))
      && BarLit(r.strips.left, n, envN, r.peak)
    ensures PeakIndex(r.peak, n).Some? ==> r.strips.left[PeakIndex(r.peak, n).value] == PeakColor(r.peak)
    ensures forall i :: 0 <= i < n && PeakIndex(r.peak, n) != Some(i) ==>
      r.strips.left[i] == if i < BarLevel(envN, n) then BarPixel(i, n, envN, punch) else Black
  {
    var level := BarLevel(envN, n);
    var peak' := NextPeak(peak, envN);
    var column := seq(n, i requires 0 <= i < n => if i < level then BarPixel(i, n, envN, punch) else Black);
    var idx := PeakIndex(peak', n);
    var column' := if idx.Some? then column[idx.value := PeakColor(peak')] else column;
    BarFrame(Strips(column', column'), peak')
  }

  /** In silence with the marker at rest, the bar draws nothing: the marker
      stays at zero, below its threshold, and no pixel is lit. */
  lemma QuietBarDark(n: nat, punch: real)
    requires n >= 1
    ensures var b := RenderBar(n, 0.0, punch, 0.0);
      b.peak == 0.0 && forall i :: 0 <= i < n ==> b.strips.left[i] == Black
  {
    assert BarLevel(0.0, n) == 0;
  }

  // ---------------------------------------------------------------------
  // SOUND_SPARKLE
  // ---------------------------------------------------------------------

  /** `int(loud * 6.0 + punch * 8.0 + 0.4)`: between 0 and `MAX_SPARKS` on
      unit inputs. */
  function SparkCount(loud: real, punch: real): (k: int)
    ensures 0.0 <= loud <= 1.0 && 0.0 <= punch <= 1.0 ==> 0 <= k <= MAX_SPARKS
  {
    Trunc(loud * 6.0 + punch * 8.0 + 0.4)
  }

  /** More loudness or more punch never means fewer sparks. */
  lemma SparkCountMonotone(loud: real, punch: real, loud': real, punch': real)
    requires 0.0 <= loud <= loud' && 0.0 <= punch <= punch'
    ensures SparkCount(loud, punch) <= SparkCount(loud', punch')
  {
    TruncMonotone(loud * 6.0 + punch * 8.0 + 0.4, loud' * 6.0 + punch' * 8.0 + 0.4);
  }

  /** The sparkle picture: the first `SparkCount` drawn indices show the
      spark colour and every other index the dim base colour. */
  predicate SparkleShown(s: Strips, n: nat, loud: real, punch: real, hsv: Hsv, picks: seq<int>)
    requires Fits(s, n) && 0 <= SparkCount(loud, punch) <= |picks|
  {
    forall i :: 0 <= i < 2 * n ==>
      At(s, n, i) == if i in picks[..SparkCount(loud, punch)]
                     then hsv(0.10 + 0.12 * punch, 0.4, 1.0)
                     else hsv(0.58, 0.9, 0.18 + 0.30 * loud + 0.25 * punch)
  }

  /** `MODE_SOUND_SPARKLE`: a dim base everywhere, then one random index per
      spark set to the sparkle colour. Every pixel shows one of the two, and
      an index shows the sparkle colour exactly when it was drawn (or the
      two colours coincide). */
  function RenderSparkle(n: nat, loud: real, punch: real, hsv: Hsv, picks: seq<int>): (r: Strips)
    requires 0 <= SparkCount(loud, punch) <= |picks|
    requires forall k :: 0 <= k < |picks| ==> 0 <= picks[k] < 2 * n
    ensures Fits(r, n)
    ensures SparkleShown(r, n, loud, punch, hsv, picks)
  {
    var base := hsv(0.58, 0.9, 0.18 + 0.30 * loud + 0.25 * punch);
    var sparkle := hsv(0.10 + 0.12 * punch, 0.4, 1.0);
    Scatter(FillAll(n, base), n, picks[..SparkCount(loud, punch)], sparkle)
  }

  // ---------------------------------------------------------------------
  // SOUND_COLOR
  // ---------------------------------------------------------------------

  /** `MODE_SOUND_COLOR`'s single colour: a hue between violet (quiet) and red
      (loud), with a white flash blended in on a hit. The flash only ever
      brightens a valid colour, and without a hit the colour is the plain
      hue. */
  function SoundColor(loud: real, punch: real, hsv: Hsv): (c: Rgb)
    ensures var c0 := hsv(Lerp(0.70, 0.02, loud), 1.0, 0.25 + 0.75 * loud);
      && (punch <= 0.05 ==> c == c0)
      && (InByteRange(c0) ==> InByteRange(c) && c.r >= c0.r && c.g >= c0.g && c.b >= c0.b)
  {
    var hue := Lerp(0.70, 0.02, loud);
    var val := 0.25 + 0.75 * loud;
    var c0 := hsv(hue, 1.0, val);
    if punch > 0.05 then LerpColor(c0, White, Clamp01(punch * 0.9)) else c0
  }

  // ---------------------------------------------------------------------
  // SOUND_PULSE
  // ---------------------------------------------------------------------

  /** The pulse brightness: a unit value with a floor of 0.05 on non-negative
      signals, and non-decreasing in both signals. */
  function PulseBrightness(envN: real, punch: real): (b: real)
    ensures 0.0 <= b <= 1.0
    ensures 0.0 <= envN && 0.0 <= punch ==> 0.05 <= b
  {
    Clamp01(0.05 + 0.80 * envN + 0.45 * punch)
  }

  lemma PulseBrightnessMonotone(envN: real, punch: real, envN': real, punch': real)
    requires envN <= envN' && punch <= punch'
    ensures PulseBrightness(envN, punch) <= PulseBrightness(envN', punch')
  {
    ClampMonotone(0.05 + 0.80 * envN + 0.45 * punch, 0.05 + 0.80 * envN' + 0.45 * punch', 0.0, 1.0);
  }

  /** `MODE_SOUND_PULSE`'s colour: warm white scaled by the pulse brightness.
      Silence gives the floor colour (12, 11, 9). */
  function PulseColor(envN: real, punch: real): (c: Rgb)
    ensures InByteRange(c) && c.r <= 255 && c.g <= 220 && c.b <= 180
    ensures envN == 0.0 && punch == 0.0 ==> c == Rgb(12, 11, 9)
  {
    Scale(PULSE_WARM_WHITE, PulseBrightness(envN, punch))
  }

  // ---------------------------------------------------------------------
  // RAINBOW_BREATHE and RAINBOW_FLOW
  // ---------------------------------------------------------------------

  /** `0.30 + 0.70 * (0.5 + 0.5 * sin)`: between 0.30 and 1.0. */
  function BreatheLevel(sinNow: real): (v: real)
    requires -1.0 <= sinNow <= 1.0
    ensures 0.30 <= v <= 1.0
  {
    0.30 + 0.70 * (0.5 + 0.5 * sinNow)
  }

  /** `hue_base` after a frame: the drift wrapped into [0,1). */
  function NextHueBase(hueBase: real, dt: real): (h: real)
    ensures 0.0 <= h < 1.0
    ensures (hueBase + dt * 0.08 - h).Floor as real == hueBase + dt * 0.08 - h
  {
    Frac(hueBase + dt * 0.08)
  }

  /** The hue of index `i` in the breathing rainbow: spread over 0.65 of the
      colour wheel from `hue_base`. */
  function BreatheHue(hueBase: real, i: int, total: nat): (h: real)
    requires 0 <= i < total
    ensures hueBase <= h < hueBase + 0.65
  {
    var f := i as real / total as real;
    assert 0.0 <= f < 1.0;
    MulUnitBounds(0.65, f);
    hueBase + f * 0.65
  }

  /** The breathing picture: every logical index shows the softened rainbow
      colour of its own hue at the given level. */
  predicate BreatheShown(s: Strips, n: nat, hueBase: real, level: real, softHot: SoftHot)
    requires Fits(s, n)
  {
    forall i :: 0 <= i < 2 * n ==> At(s, n, i) == softHot(BreatheHue(hueBase, i, 2 * n), level)
  }

  /** `MODE_RAINBOW_BREATHE`: every logical index shows the softened rainbow
      colour of its own hue at the breathing brightness. */
  function RenderBreathe(n: nat, hueBase: real, level: real, softHot: SoftHot): (r: Strips)
    ensures Fits(r, n)
    ensures BreatheShown(r, n, hueBase, level, softHot)
  {
    var total := 2 * n;
    PaintU(ClearU(n), n, seq(total, i requires 0 <= i < total => softHot(BreatheHue(hueBase, i, total), level)))
  }

  /** `flow_speed`: between 0.18 and 1.48 on unit signals. */
  function FlowSpeed(envN: real, punch: real): (v: real)
    ensures 0.0 <= envN <= 1.0 && 0.0 <= punch <= 1.0 ==> 0.18 <= v <= 1.48
  {
    0.18 + 0.55 * envN + 0.75 * punch
  }

  /** `flow_phase` after a frame: wrapped into [0,1). */
  function NextFlowPhase(phase: real, dt: real, speed: real): (p: real)
    ensures 0.0 <= p < 1.0
    ensures (phase + dt * speed - p).Floor as real == phase + dt * speed - p
  {
    Frac(phase + dt * speed)
  }

  /** The flow brightness: at least 0.18 on non-negative signals, at most 1. */
  function FlowLevel(envN: real, punch: real): (v: real)
    ensures v <= 1.0
    ensures 0.0 <= envN && 0.0 <= punch ==> 0.18 <= v
  {
    Clamp01(0.18 + 0.55 * envN + 0.35 * punch)
  }

  /** The hue of index `i` in the flowing rainbow, wrapped into [0,1). */
  function FlowHue(phase: real, i: int, total: nat): (h: real)
    requires 0 < total
    ensures 0.0 <= h < 1.0
  {
    Frac(phase + i as real / total as real)
  }

  /** The flowing picture: every logical index shows the softened rainbow
      colour of its own wrapped hue at the given level. */
  predicate FlowShown(s: Strips, n: nat, phase: real, level: real, softHot: SoftHot)
    requires n >= 1 && Fits(s, n)
  {
    forall i :: 0 <= i < 2 * n ==> At(s, n, i) == softHot(FlowHue(phase, i, 2 * n), level)
  }

  /** `MODE_RAINBOW_FLOW`: every logical index shows the softened rainbow
      colour of its own wrapped hue at the flow brightness. */
  function RenderFlow(n: nat, phase: real, level: real, softHot: SoftHot): (r: Strips)
    requires n >= 1
    ensures Fits(r, n)
    ensures FlowShown(r, n, phase, level, softHot)
  {
    var total := 2 * n;
    PaintU(ClearU(n), n, seq(total, i requires 0 <= i < total => softHot(FlowHue(phase, i, total), level)))
  }
}

=== FILE: strings.dfy ===
/**
  The parts of CircuitPython's `str` that the weather screens use: whitespace,
  ASCII case mapping, `split()`, `" ".join`, `strip()`, `split("\n")`,
  `endswith` and `str(int)`, each with a partner that pins down its meaning.
 */
module Strings {

  /** The whitespace of CircuitPython's `split()` and `strip()`: the space
      and the ASCII controls tab, line feed, vertical tab, form feed and
      carriage return. */
  predicate IsSpace(c: char) {
    c == ' ' || '\t' <= c <= '\r'
  }

  /** `c.upper()` as CircuitPython does it: ASCII letters only; every other
      character is left alone. */
  function UpperAscii(c: char): (r: char)
    ensures IsSpace(r) <==> IsSpace(c)
    ensures !('a' <= r <= 'z')
    ensures !('a' <= c <= 'z') ==> r == c
  {
    if 'a' <= c <= 'z' then (c as int - 32) as char else c
  }

  /** `c.lower()` as CircuitPython does it: ASCII letters only; every other
      character is left alone. */
  function LowerAscii(c: char): (r: char)
    ensures IsSpace(r) <==> IsSpace(c)
    ensures !('A' <= r <= 'Z')
    ensures !('A' <= c <= 'Z') ==> r == c
  {
    if 'A' <= c <= 'Z' then (c as int + 32) as char else c
  }

  /** `s.lower()`, character by character. */
  function Lower(s: string): (r: string)
    ensures |r| == |s|
    ensures forall i :: 0 <= i < |s| ==> r[i] == LowerAscii(s[i])
  {
    seq(|s|, i requires 0 <= i < |s| => LowerAscii(s[i]))
  }

  lemma LowerAppend(a: string, b: string)
    ensures Lower(a + b) == Lower(a) + Lower(b)
  {
    assert forall i :: 0 <= i < |a + b| ==> Lower(a + b)[i] == (Lower(a) + Lower(b))[i];
  }

  /** Every character of `s` is whitespace. */
  predicate AllSpace(s: string) {
    forall i :: 0 <= i < |s| ==> IsSpace(s[i])
  }

  /** `s` neither starts nor ends with whitespace. */
  predicate Trimmed(s: string) {
    |s| > 0 ==> !IsSpace(s[0]) && !IsSpace(s[|s| - 1])
  }

  function StripLeft(s: string): (r: string)
    ensures |r| <= |s| && r == s[|s| - |r|..]
    ensures |r| > 0 ==> !IsSpace(r[0])
    ensures AllSpace(s[..|s| - |r|])
  {
    if |s| > 0 && IsSpace(s[0]) then
      var r := StripLeft(s[1..]);
      SpaceCons(s[0], s[1..][..|s| - 1 - |r|]);
      assert s[..|s| - |r|] == [s[0]] + s[1..][..|s| - 1 - |r|];
      r
    else s
  }

  /** A whitespace character in front of whitespace is whitespace. */
  lemma SpaceCons(c: char, t: string)
    ensures IsSpace(c) && AllSpace(t) ==> AllSpace([c] + t)
  {
    if IsSpace(c) && AllSpace(t) {
      forall i | 0 <= i < |[c] + t|
        ensures IsSpace(([c] + t)[i])
      {
        if i > 0 {
          assert ([c] + t)[i] == t[i - 1];
        }
      }
    }
  }

  function StripRight(s: string): (r: string)
    ensures |r| <= |s| && r == s[..|r|]
    ensures |r| > 0 ==> !IsSpace(r[|r| - 1])
    ensures AllSpace(s[|r|..])
  {
    if |s| > 0 && IsSpace(s[|s| - 1]) then
      var r := StripRight(s[..|s| - 1]);
      assert s[|r|..] == s[..|s| - 1][|r|..] + [s[|s| - 1]];
      r
    else s
  }

  /** `r` is what remains of `s` after removing a whitespace prefix and a
      whitespace suffix. */
  predicate TrimOf(r: string, s: string) {
    exists i, j :: 0 <= i <= j <= |s| && r == s[i..j] && AllSpace(s[..i]) && AllSpace(s[j..])
  }

  /** `s.strip()`: the result is trimmed, and it is what remains of `s`
      after removing a whitespace prefix and a whitespace suffix. */
  function Strip(s: string): (r: string)
    ensures Trimmed(r)
    ensures TrimOf(r, s)
  {
    var l := StripLeft(s);
    var r := StripRight(l);
    var i := |s| - |l|;
    var j := i + |r|;
    SuffixSlices(s, i, |r|);
    assert AllSpace(s[..i]) && AllSpace(s[j..]);
    r
  }

  /** Cutting a suffix of `s` at `k` cuts `s` at `i + k`. */
  lemma SuffixSlices<T>(s: seq<T>, i: nat, k: nat)
    requires i + k <= |s|
    ensures s[i..][..k] == s[i..i + k]
    ensures s[i..][k..] == s[i + k..]
  {
  }

  lemma {:induction false} StripLeftPadded(pre: string, t: string)
    requires AllSpace(pre)
    requires |t| > 0 ==> !IsSpace(t[0])
    ensures StripLeft(pre + t) == t
    decreases |pre|
  {
    if |pre| > 0 {
      assert (pre + t)[1..] == pre[1..] + t;
      StripLeftPadded(pre[1..], t);
    } else {
      assert pre + t == t;
    }
  }

  lemma {:induction false} StripRightPadded(t: string, post: string)
    requires AllSpace(post)
    requires |t| > 0 ==> !IsSpace(t[|t| - 1])
    ensures StripRight(t + post) == t
    decreases |post|
  {
    if |post| > 0 {
      var k := |post| - 1;
      assert (t + post)[..|t + post| - 1] == t + post[..k];
      StripRightPadded(t, post[..k]);
    } else {
      assert t + post == t;
    }
  }

  /** Stripping undoes any whitespace padding of a trimmed string. */
  lemma StripPadded(pre: string, t: string, post: string)
    requires AllSpace(pre) && AllSpace(post) && Trimmed(t)
    ensures Strip(pre + t + post) == t
  {
    if |t| == 0 {
      assert pre + t + post == pre + post;
      assert AllSpace(pre + post);
    } else {
      assert pre + t + post == pre + (t + post);
      StripLeftPadded(pre, t + post);
      StripRightPadded(t, post);
    }
  }

  /** A word of `split()`: non-empty and free of whitespace. */
  predicate IsWord(w: string) {
    |w| > 0 && forall i :: 0 <= i < |w| ==> !IsSpace(w[i])
  }

  predicate AllWords(ws: seq<string>) {
    forall k :: 0 <= k < |ws| ==> IsWord(ws[k])
  }

  /** Every character of `w` occurs in `s`. */
  predicate CharsWithin(w: string, s: string) {
    forall i :: 0 <= i < |w| ==> w[i] in s
  }

  /** Length of the run of non-whitespace characters that starts `s`. */
  function WordLen(s: string): (n: nat)
    ensures n <= |s|
    ensures forall i :: 0 <= i < n ==> !IsSpace(s[i])
    ensures n < |s| ==> IsSpace(s[n])
  {
    if |s| == 0 || IsSpace(s[0]) then 0 else 1 + WordLen(s[1..])
  }

  /** `s.split()`: the maximal runs of non-whitespace characters, in order. */
  function Split(s: string): (ws: seq<string>)
    ensures AllWords(ws)
    ensures forall k :: 0 <= k < |ws| ==> CharsWithin(ws[k], s)
    decreases |s|
  {
    if |s| == 0 then []
    else if IsSpace(s[0]) then
      var ws := Split(s[1..]);
      assert forall k, i :: 0 <= k < |ws| && 0 <= i < |ws[k]| ==> ws[k][i] in s[1..] ==> ws[k][i] in s;
      ws
    else
      var n := WordLen(s);
      var ws := Split(s[n..]);
      assert forall k, i :: 0 <= k < |ws| && 0 <= i < |ws[k]| ==> ws[k][i] in s[n..] ==> ws[k][i] in s;
      assert forall i :: 0 <= i < n ==> s[..n][i] == s[i];
      [s[..n]] + ws
  }

  /** `" ".join(ws)`. */
  function Join(ws: seq<string>): string
  {
    if |ws| == 0 then ""
    else if |ws| == 1 then ws[0]
    else ws[0] + " " + Join(ws[1..])
  }

  lemma {:induction false} WordLenOfWord(w: string, t: string)
    requires IsWord(w)
    requires |t| > 0 ==> IsSpace(t[0])
    ensures WordLen(w + t) == |w|
    decreases |w|
  {
    if |w| > 1 {
      assert (w + t)[1..] == w[1..] + t;
      WordLenOfWord(w[1..], t);
    } else {
      assert (w + t)[1..] == t;
    }
  }

  /** `split()` recovers the words that `" ".join` glued together. */
  lemma {:induction false} SplitJoin(ws: seq<string>)
    requires AllWords(ws)
    ensures Split(Join(ws)) == ws
    decreases |ws|
  {
    if |ws| == 1 {
      var w := ws[0];
      WordLenOfWord(w, "");
      assert w + "" == w;
      assert w[|w|..] == [];
      assert w[..|w|] == w;
    } else if |ws| > 1 {
      SplitJoin(ws[1..]);
      SplitWordThen(ws[0], Join(ws[1..]));
      assert ws == [ws[0]] + ws[1..];
    }
  }

  /** A word followed by nothing or by whitespace contributes exactly that
      word to `split()`. */
  lemma SplitWordBefore(w: string, rest: string)
    requires IsWord(w)
    requires |rest| > 0 ==> IsSpace(rest[0])
    ensures Split(w + rest) == [w] + Split(rest)
  {
    var s := w + rest;
    WordLenOfWord(w, rest);
    assert s[..|w|] == w;
    assert s[|w|..] == rest;
  }

  /** A word followed by a space contributes exactly that word to `split()`. */
  lemma SplitWordThen(w: string, rest: string)
    requires IsWord(w)
    ensures Split(w + " " + rest) == [w] + Split(rest)
  {
    SplitWordBefore(w, " " + rest);
    assert (" " + rest)[1..] == rest;
    assert w + " " + rest == w + (" " + rest);
  }

  /** What `" ".join` of words looks like: every whitespace character is a
      single space strictly inside the string, between two non-spaces. */
  predicate SingleSpaced(s: string) {
    forall i :: 0 <= i < |s| && IsSpace(s[i]) ==>
      s[i] == ' ' && 0 < i < |s| - 1 && !IsSpace(s[i - 1]) && !IsSpace(s[i + 1])
  }

  lemma {:induction false} JoinShape(ws: seq<string>)
    requires AllWords(ws)
    ensures SingleSpaced(Join(ws))
    ensures |ws| > 0 ==> |Join(ws)| > 0 && Trimmed(Join(ws))
    ensures |ws| == 0 ==> Join(ws) == ""
    ensures forall c :: c in Join(ws) ==> c == ' ' || exists k :: 0 <= k < |ws| && c in ws[k]
    decreases |ws|
  {
    if |ws| > 1 {
      var w := ws[0];
      var rest := Join(ws[1..]);
      JoinShape(ws[1..]);
      var s := Join(ws);
      assert s == w + " " + rest;
      forall i | 0 <= i < |s| && IsSpace(s[i])
        ensures s[i] == ' ' && 0 < i < |s| - 1 && !IsSpace(s[i - 1]) && !IsSpace(s[i + 1])
      {
        if i > |w| {
          assert s[i] == rest[i - |w| - 1];
          if i - 1 > |w| {
            assert s[i - 1] == rest[i - |w| - 2];
          }
          if i + 1 < |s| {
            assert s[i + 1] == rest[i - |w|];
          }
        } else if i == |w| {
          assert s[i - 1] == w[|w| - 1];
          assert s[i + 1] == rest[0];
        }
      }
      forall c | c in s
        ensures c == ' ' || exists k :: 0 <= k < |ws| && c in ws[k]
      {
        if c in w {
        } else if c != ' ' {
          assert c in rest;
          var k :| 0 <= k < |ws[1..]| && c in ws[1..][k];
          assert c in ws[k + 1];
        }
      }
    }
  }

  /** Python's `s.split(sep)` with an explicit one-character separator:
      always at least one piece, and the pieces never contain `sep`. */
  function SplitOn(s: string, sep: char): (r: seq<string>)
    ensures |r| >= 1
    ensures forall k :: 0 <= k < |r| ==> sep !in r[k]
    decreases |s|
  {
    if |s| == 0 then [""]
    else
      var rest := SplitOn(s[1..], sep);
      if s[0] == sep then [""] + rest
      else [[s[0]] + rest[0]] + rest[1..]
  }

  /** Joining by `sep` a piece that has no `sep` and any tail, `SplitOn`
      gives back the piece followed by the pieces of the tail. */
  lemma {:induction false} SplitOnAppend(a: string, sep: char, b: string)
    requires sep !in a
    ensures SplitOn(a + [sep] + b, sep) == [a] + SplitOn(b, sep)
    decreases |a|
  {
    var s := a + [sep] + b;
    if |a| == 0 {
      assert s[1..] == b;
    } else {
      assert s[1..] == a[1..] + [sep] + b;
      SplitOnAppend(a[1..], sep, b);
      assert [s[0]] + a[1..] == a;
    }
  }

  /** A string without `sep` is a single piece. */
  lemma {:induction false} SplitOnNone(a: string, sep: char)
    requires sep !in a
    ensures SplitOn(a, sep) == [a]
    decreases |a|
  {
    if |a| > 0 {
      SplitOnNone(a[1..], sep);
      assert [a[0]] + a[1..] == a;
    }
  }

  /** `s.endswith(suffix)`. */
  predicate EndsWith(s: string, suffix: string) {
    |suffix| <= |s| && s[|s| - |suffix|..] == suffix
  }

  predicate IsDigit(c: char) { '0' <= c <= '9' }

  predicate AllDigits(s: string) {
    forall i :: 0 <= i < |s| ==> IsDigit(s[i])
  }

  /** The shape of `str(n)` for a Python int: an optional minus sign and then
      decimal digits without a superfluous leading zero. */
  predicate IsDecimal(s: string) {
    var d := if |s| > 0 && s[0] == '-' then s[1..] else s;
    && |d| > 0
    && AllDigits(d)
    && (|d| > 1 ==> d[0] != '0')
    && (s != d ==> d != "0")
  }

  function DigitChar(d: int): (c: char)
    requires 0 <= d < 10
    ensures IsDigit(c) && c as int - '0' as int == d
  {
    ('0' as int + d) as char
  }

  /** Decimal digits of a natural number, most significant first. */
  function Digits(n: nat): (r: string)
    ensures |r| > 0 && AllDigits(r)
    ensures |r| > 1 ==> r[0] != '0'
    ensures r == "0" <==> n == 0
    decreases n
  {
    if n < 10 then [DigitChar(n)]
    else Digits(n / 10) + [DigitChar(n % 10)]
  }

  /** The value a string of decimal digits denotes (Python's `int(s)`). */
  function DigitsValue(s: string): nat
    requires AllDigits(s)
  {
    if |s| == 0 then 0
    else DigitsValue(s[..|s| - 1]) * 10 + (s[|s| - 1] as int - '0' as int)
  }

  lemma {:induction false} DigitsRoundTrip(n: nat)
    ensures DigitsValue(Digits(n)) == n
    decreases n
  {
    if n >= 10 {
      var s := Digits(n);
      assert s[..|s| - 1] == Digits(n / 10);
      DigitsRoundTrip(n / 10);
    }
  }

  /** `int(s)` for a string of the shape `str` produces. */
  function ParseDecimal(s: string): int
    requires IsDecimal(s)
  {
    if s[0] == '-' then -(DigitsValue(s[1..]) as int) else DigitsValue(s)
  }

  /** `str(n)`: a well-formed decimal that parses back to `n`. */
  function IntToDecimal(n: int): (r: string)
    ensures IsDecimal(r)
    ensures ParseDecimal(r) == n
    ensures forall i :: 0 <= i < |r| ==> r[i] == '-' || IsDigit(r[i])
  {
    if n < 0 then
      var d := Digits(-n);
      DigitsRoundTrip(-n);
      assert ("-" + d)[1..] == d;
      "-" + d
    else
      DigitsRoundTrip(n);
      Digits(n)
  }
}

=== FILE: topology.dfy ===
/**
  The LED topology of Final.py: two physical strips of `n` pixels ("left" and
  "right") addressed through one logical index space `0 .. 2n-1` that runs
  along an upside-down U: down the left strip from its top pixel, then up the
  right strip, mirrored, back to its top pixel.
  The pixel buffers are pure values; `show()` is the commit of a value.
 */
module Topology {

  /** One pixel colour, 0..255 per channel on the hardware. */
  datatype Rgb = Rgb(r: int, g: int, b: int)

  const Black := Rgb(0, 0, 0)
  const White := Rgb(255, 255, 255)

  predicate InByteRange(c: Rgb) {
    0 <= c.r <= 255 && 0 <= c.g <= 255 && 0 <= c.b <= 255
  }

  datatype Side = Left | Right

  /** A physical pixel: a strip and a position on it (0 is the top). */
  datatype Slot = Slot(side: Side, pos: int)

  /** The two pixel buffers. */
  datatype Strips = Strips(left: seq<Rgb>, right: seq<Rgb>)

  /** Both strips hold exactly `n` pixels. */
  predicate Fits(s: Strips, n: nat) {
    |s.left| == n && |s.right| == n
  }

  predicate ValidSlot(n: nat, sl: Slot) {
    0 <= sl.pos < n
  }

  function Get(s: Strips, n: nat, sl: Slot): Rgb
    requires Fits(s, n) && ValidSlot(n, sl)
  {
    if sl.side == Left then s.left[sl.pos] else s.right[sl.pos]
  }

  /** The logical index of a physical pixel. */
  function IndexOf(n: nat, sl: Slot): (i: int)
    requires ValidSlot(n, sl)
    ensures 0 <= i < 2 * n
  {
    if sl.side == Left then sl.pos else 2 * n - 1 - sl.pos
  }

  /** The physical pixel of logical index `i` (the addressing of `set_u_index`):
      it is a valid pixel, and `IndexOf` maps it back to `i`. */
  function SlotOf(n: nat, i: int): (sl: Slot)
    requires 0 <= i < 2 * n
    ensures ValidSlot(n, sl)
    ensures IndexOf(n, sl) == i
    ensures i < n ==> sl.side == Left
    ensures i >= n ==> sl.side == Right
  {
    if i < n then Slot(Left, i) else Slot(Right, 2 * n - 1 - i)
  }

  /** `SlotOf` and `IndexOf` are inverse bijections between the logical
      indices `0 .. 2n-1` and the `2n` physical pixels; the U starts at the
      top of the left strip and ends at the top of the right strip. */
  lemma UBijection(n: nat)
    ensures forall sl :: ValidSlot(n, sl) ==> SlotOf(n, IndexOf(n, sl)) == sl
    ensures forall i, j :: 0 <= i < 2 * n && 0 <= j < 2 * n && i != j ==> SlotOf(n, i) != SlotOf(n, j)
    ensures n > 0 ==> SlotOf(n, 0) == Slot(Left, 0) && SlotOf(n, 2 * n - 1) == Slot(Right, 0)
  {
  }

  /** The colour at logical index `i`. */
  function At(s: Strips, n: nat, i: int): Rgb
    requires Fits(s, n) && 0 <= i < 2 * n
  {
    Get(s, n, SlotOf(n, i))
  }

  /** `set_u_index(i, color)`: exactly the one physical pixel of index `i`
      takes the colour; every other pixel keeps its colour. */
  function SetU(s: Strips, n: nat, i: int, c: Rgb): (r: Strips)
    requires Fits(s, n) && 0 <= i < 2 * n
    ensures Fits(r, n)
    ensures Get(r, n, SlotOf(n, i)) == c
    ensures forall sl :: ValidSlot(n, sl) && sl != SlotOf(n, i) ==> Get(r, n, sl) == Get(s, n, sl)
    ensures forall k :: 0 <= k < 2 * n && k != i ==> At(r, n, k) == At(s, n, k)
  {
    if i < n then Strips(s.left[i := c], s.right)
    else Strips(s.left, s.right[(2 * n - 1) - i := c])
  }

  /** Every logical index (hence, by `UBijection`, every physical pixel) shows `c`. */
  predicate Uniform(s: Strips, n: nat, c: Rgb)
    requires Fits(s, n)
  {
    forall i :: 0 <= i < 2 * n ==> At(s, n, i) == c
  }

  /** `fill_all(color)`: both strips filled with one colour. */
  function FillAll(n: nat, c: Rgb): (r: Strips)
    ensures Fits(r, n)
    ensures Uniform(r, n, c)
    ensures forall sl :: ValidSlot(n, sl) ==> Get(r, n, sl) == c
  {
    Strips(seq(n, _ => c), seq(n, _ => c))
  }

  /** `clear_u()` and the fill of `clear_all()`: every pixel black. */
  function ClearU(n: nat): (r: Strips)
    ensures Fits(r, n)
    ensures forall sl :: ValidSlot(n, sl) ==> Get(r, n, sl) == Black
  {
    FillAll(n, Black)
  }

  /** `for i in range(i0, 2n): set_u_index(i, cols[i])`: the indices from `i0`
      on take their colours, the ones before keep theirs. */
  function PaintFrom(s: Strips, n: nat, cols: seq<Rgb>, i0: nat): (r: Strips)
    requires Fits(s, n) && |cols| == 2 * n && i0 <= 2 * n
    ensures Fits(r, n)
    ensures forall k :: i0 <= k < 2 * n ==> At(r, n, k) == cols[k]
    ensures forall k :: 0 <= k < i0 ==> At(r, n, k) == At(s, n, k)
    decreases 2 * n - i0
  {
    if i0 == 2 * n then s
    else PaintFrom(SetU(s, n, i0, cols[i0]), n, cols, i0 + 1)
  }

  /** Painting the whole U: logical index `k` shows `cols[k]`, so the left
      strip reads `cols[0..n)` top-down and the right strip reads the rest
      of `cols` bottom-up. */
  function PaintU(s: Strips, n: nat, cols: seq<Rgb>): (r: Strips)
    requires Fits(s, n) && |cols| == 2 * n
    ensures Fits(r, n)
    ensures forall k :: 0 <= k < 2 * n ==> At(r, n, k) == cols[k]
    ensures forall j :: 0 <= j < n ==> r.left[j] == cols[j] && r.right[j] == cols[2 * n - 1 - j]
  {
    var r := PaintFrom(s, n, cols, 0);
    assert forall j :: 0 <= j < n ==> At(r, n, j) == r.left[j] && At(r, n, 2 * n - 1 - j) == r.right[j];
    r
  }

  /** `for idx in picks: set_u_index(idx, c)`: the picked indices show `c`,
      every other index keeps its colour. */
  function Scatter(s: Strips, n: nat, picks: seq<int>, c: Rgb): (r: Strips)
    requires Fits(s, n)
    requires forall k :: 0 <= k < |picks| ==> 0 <= picks[k] < 2 * n
    ensures Fits(r, n)
    ensures forall i :: 0 <= i < 2 * n ==> At(r, n, i) == if i in picks then c else At(s, n, i)
    decreases |picks|
  {
    if |picks| == 0 then s
    else
      var r := Scatter(SetU(s, n, picks[0], c), n, picks[1..], c);
      assert forall i :: i in picks <==> i == picks[0] || i in picks[1..];
      r
  }
}

=== FILE: words.dfy ===
/**
  The meaning of `split()` on any string: its words are the string's
  non-whitespace characters, and the string is the words laid out between
  whitespace runs. Together with `SplitJoin` this pins `Strings.Split`
  down on every input.
 */
module Words {
  import opened Strings

  /** The non-whitespace characters of `s`, in order. */
  function NonSpace(s: string): string
    decreases |s|
  {
    if |s| == 0 then ""
    else (if IsSpace(s[0]) then "" else [s[0]]) + NonSpace(s[1..])
  }

  /** A whitespace-free prefix is kept whole by `NonSpace`. */
  lemma {:induction false} NonSpaceAppend(w: string, t: string)
    requires forall i :: 0 <= i < |w| ==> !IsSpace(w[i])
    ensures NonSpace(w + t) == w + NonSpace(t)
    decreases |w|
  {
    if |w| == 0 {
      assert w + t == t;
    } else {
      var s := w + t;
      assert s[0] == w[0] && !IsSpace(w[0]);
      assert s[1..] == w[1..] + t;
      NonSpaceAppend(w[1..], t);
      assert [w[0]] + w[1..] == w;
    }
  }

  /** The words of `ws` written one after another. */
  function Concat(ws: seq<string>): string
  {
    if |ws| == 0 then "" else ws[0] + Concat(ws[1..])
  }

  /** The words of `split()` are, together, exactly the non-whitespace
      characters of `s` in order; a whitespace-only `s` has no words. */
  lemma {:induction false} SplitContents(s: string)
    ensures Concat(Split(s)) == NonSpace(s)
    ensures |Split(s)| == 0 <==> AllSpace(s)
    decreases |s|
  {
    if |s| > 0 {
      if IsSpace(s[0]) {
        SplitContents(s[1..]);
        SpaceCons(s[0], s[1..]);
        TakeDrop(s, 1);
        assert s[..1] == [s[0]];
        assert AllSpace(s) ==> AllSpace(s[1..]) by {
          assert forall i :: 0 <= i < |s[1..]| ==> s[1..][i] == s[i + 1];
        }
      } else {
        var n := WordLen(s);
        var ws := Split(s[n..]);
        SplitContents(s[n..]);
        assert forall i :: 0 <= i < n ==> s[..n][i] == s[i];
        NonSpaceAppend(s[..n], s[n..]);
        TakeDrop(s, n);
        assert Split(s) == [s[..n]] + ws;
        assert ([s[..n]] + ws)[1..] == ws;
        assert !IsSpace(s[0]);
      }
    }
  }

  /** Leading whitespace does not change `split()`. */
  lemma {:induction false} SplitSpaces(pad: string, t: string)
    requires AllSpace(pad)
    ensures Split(pad + t) == Split(t)
    decreases |pad|
  {
    if |pad| > 0 {
      assert (pad + t)[0] == pad[0];
      assert (pad + t)[1..] == pad[1..] + t;
      SplitSpaces(pad[1..], t);
    } else {
      assert pad + t == t;
    }
  }

  /** Words laid out between whitespace runs:
      `gaps[0] + ws[0] + gaps[1] + ... + ws[n - 1] + gaps[n]`. */
  function Interleave(ws: seq<string>, gaps: seq<string>): string
    requires |gaps| == |ws| + 1
    decreases |ws|
  {
    if |ws| == 0 then gaps[0] else gaps[0] + ws[0] + Interleave(ws[1..], gaps[1..])
  }

  /** Whitespace runs that can separate words: all whitespace, and every
      run between two words non-empty (the outer two may be empty). */
  predicate Separators(gaps: seq<string>) {
    && (forall k :: 0 <= k < |gaps| ==> AllSpace(gaps[k]))
    && (forall k :: 0 < k < |gaps| - 1 ==> |gaps[k]| > 0)
  }

  /** `s` is the words `ws` laid out between the separating runs `gaps`. */
  predicate IsLayout(s: string, ws: seq<string>, gaps: seq<string>) {
    |gaps| == |ws| + 1 && Separators(gaps) && Interleave(ws, gaps) == s
  }

  /** `split()` returns the words of any layout of them: whatever whitespace
      surrounds and separates the words, splitting gives exactly the words. */
  lemma {:induction false} SplitInterleave(ws: seq<string>, gaps: seq<string>)
    requires AllWords(ws) && |gaps| == |ws| + 1 && Separators(gaps)
    ensures Split(Interleave(ws, gaps)) == ws
    decreases |ws|
  {
    if |ws| == 0 {
      SplitContents(gaps[0]);
    } else {
      SeparatorsTail(gaps);
      SplitInterleave(ws[1..], gaps[1..]);
      SplitInterleaveStep(ws, gaps);
    }
  }

  /** What follows the first word of a layout is empty or starts with
      whitespace. */
  lemma RestStartsSpace(ws: seq<string>, gaps: seq<string>)
    requires AllWords(ws) && |ws| > 0 && |gaps| == |ws| + 1 && Separators(gaps)
    ensures var rest := Interleave(ws[1..], gaps[1..]); |rest| > 0 ==> IsSpace(rest[0])
  {
    var rest := Interleave(ws[1..], gaps[1..]);
    if |ws| > 1 {
      assert rest == gaps[1] + (ws[1] + Interleave(ws[2..], gaps[2..]));
      assert rest[0] == gaps[1][0];
    } else {
      assert rest == gaps[1];
    }
  }

  /** The runs after the first of a layout still separate its later words. */
  lemma SeparatorsTail(gaps: seq<string>)
    requires Separators(gaps) && |gaps| > 0
    ensures Separators(gaps[1..])
  {
    assert forall k :: 0 <= k < |gaps[1..]| ==> gaps[1..][k] == gaps[k + 1];
  }

  /** If the later words of a layout split correctly, so does the whole. */
  lemma SplitInterleaveStep(ws: seq<string>, gaps: seq<string>)
    requires AllWords(ws) && |ws| > 0 && |gaps| == |ws| + 1 && Separators(gaps)
    requires Split(Interleave(ws[1..], gaps[1..])) == ws[1..]
    ensures Split(Interleave(ws, gaps)) == ws
  {
    var rest := Interleave(ws[1..], gaps[1..]);
    RestStartsSpace(ws, gaps);
    assert gaps[0] + ws[0] + rest == gaps[0] + (ws[0] + rest);
    SplitSpaces(gaps[0], ws[0] + rest);
    SplitWordBefore(ws[0], rest);
    ConsTail(ws);
  }

  /** Every string is a layout of its `split()` words: the words and some
      separating whitespace runs rebuild it exactly. */
  lemma {:induction false} SplitLayout(s: string)
    ensures exists gaps :: IsLayout(s, Split(s), gaps)
    decreases |s|
  {
    if |s| == 0 {
      assert IsLayout(s, Split(s), [""]);
    } else if IsSpace(s[0]) {
      SplitLayout(s[1..]);
      var g :| IsLayout(s[1..], Split(s[1..]), g);
      LayoutAfterSpace(s, g);
    } else {
      var n := WordLen(s);
      SplitLayout(s[n..]);
      var g :| IsLayout(s[n..], Split(s[n..]), g);
      LayoutAfterWord(s, g);
    }
  }

  /** A leading whitespace character joins the leading run. */
  lemma LayoutAfterSpace(s: string, g: seq<string>)
    requires |s| > 0 && IsSpace(s[0])
    requires IsLayout(s[1..], Split(s[1..]), g)
    ensures IsLayout(s, Split(s), [[s[0]] + g[0]] + g[1..])
  {
    var ws := Split(s[1..]);
    assert Split(s) == ws;
    SeparatorsGrow(s[0], g);
    InterleaveGrowGap(s[0], ws, g);
    TakeDrop(s, 1);
    assert s[..1] == [s[0]];
  }

  /** A leading word becomes the first word, with an empty leading run. */
  lemma LayoutAfterWord(s: string, g: seq<string>)
    requires |s| > 0 && !IsSpace(s[0])
    requires IsLayout(s[WordLen(s)..], Split(s[WordLen(s)..]), g)
    ensures IsLayout(s, Split(s), [""] + g)
  {
    var n := WordLen(s);
    var t := s[n..];
    var ws := Split(t);
    assert |t| > 0 ==> IsSpace(t[0]) by {
      if |t| > 0 {
        assert t[0] == s[n];
      }
    }
    if |ws| > 0 {
      FirstRunNonEmpty(t, ws, g);
    }
    SeparatorsCons("", g);
    InterleaveWord(s[..n], ws, g);
    TakeDrop(s, n);
    assert Split(s) == [s[..n]] + ws;
  }

  /** `split()` characterised: the words of `s` are exactly the words
      that `s` is a layout of. */
  lemma SplitIff(s: string, ws: seq<string>)
    requires AllWords(ws)
    ensures Split(s) == ws <==> exists gaps :: IsLayout(s, ws, gaps)
  {
    SplitLayout(s);
    if gaps :| IsLayout(s, ws, gaps) {
      SplitInterleave(ws, gaps);
    }
  }

  /** A layout of at least one word that starts with whitespace (or is
      empty) has a non-empty leading run, since words start with a
      non-space. */
  lemma FirstRunNonEmpty(t: string, ws: seq<string>, g: seq<string>)
    requires AllWords(ws) && IsLayout(t, ws, g) && |ws| > 0
    requires |t| > 0 ==> IsSpace(t[0])
    ensures |g[0]| > 0
  {
    InterleaveFirst(ws, g);
  }

  /** Whitespace in front of the leading run keeps the runs separators. */
  lemma SeparatorsGrow(c: char, g: seq<string>)
    requires IsSpace(c) && Separators(g) && |g| > 0
    ensures Separators([[c] + g[0]] + g[1..])
  {
    var gaps := [[c] + g[0]] + g[1..];
    SpaceCons(c, g[0]);
    assert forall k :: 0 < k < |gaps| ==> gaps[k] == g[k];
  }

  /** A new whitespace run in front keeps the runs separators, provided
      the old leading run, now inner, is non-empty. */
  lemma SeparatorsCons(g0: string, g: seq<string>)
    requires AllSpace(g0) && Separators(g)
    requires |g| > 1 ==> |g[0]| > 0
    ensures Separators([g0] + g)
  {
    var gaps := [g0] + g;
    assert forall k :: 0 < k < |gaps| ==> gaps[k] == g[k - 1];
  }

  /** Growing the leading run by one character grows the layout by it. */
  lemma InterleaveGrowGap(c: char, ws: seq<string>, g: seq<string>)
    requires |g| == |ws| + 1
    ensures Interleave(ws, [[c] + g[0]] + g[1..]) == [c] + Interleave(ws, g)
  {
    var gaps := [[c] + g[0]] + g[1..];
    assert gaps[1..] == g[1..];
  }

  /** A word put in front of a layout, with no leading run. */
  lemma InterleaveWord(w: string, ws: seq<string>, g: seq<string>)
    requires |g| == |ws| + 1
    ensures Interleave([w] + ws, [""] + g) == w + Interleave(ws, g)
  {
    assert ([w] + ws)[1..] == ws;
    assert ([""] + g)[1..] == g;
    assert Interleave([w] + ws, [""] + g) == "" + w + Interleave(ws, g);
    assert "" + w == w;
  }

  /** A layout of at least one word starts with its leading run, or with
      the first word when that run is empty. */
  lemma InterleaveFirst(ws: seq<string>, g: seq<string>)
    requires AllWords(ws) && |g| == |ws| + 1 && |ws| > 0
    ensures |Interleave(ws, g)| > 0
    ensures Interleave(ws, g)[0] == if |g[0]| > 0 then g[0][0] else ws[0][0]
  {
    assert Interleave(ws, g) == g[0] + ws[0] + Interleave(ws[1..], g[1..]);
  }

  /** A string is its first `n` characters followed by the rest. */
  lemma TakeDrop(s: string, n: nat)
    requires n <= |s|
    ensures s[..n] + s[n..] == s
  {
  }

  /** A non-empty sequence is its head followed by its tail. */
  lemma ConsTail<T>(xs: seq<T>)
    requires |xs| > 0
    ensures [xs[0]] + xs[1..] == xs
  {
  }
}

=== FILE: wrappers.dfy ===
/** Optional values: a missing dictionary key or a JSON `null` on the Python side. */
module Wrappers {

  datatype Option<+T> = None | Some(value: T) {

    /** The wrapped value, or `default` when there is none (Python's `d.get(k, default)`). */
    function GetOr(default: T): T {
      match this
      case Some(v) => v
      case None => default
    }
  }
}
